=== FILE: README.md ===
# ptstd message layer, hex digest strings and linked deque, in Dafny

This project models three parts of the ptstd Rust library and proves properties of them.

- **The stop-and-wait message protocol of `src/net/message.rs`.**
  - A message is cut into segments of at most 1024 bytes.
  - Each segment travels as a packed 32-byte `MessageHeader` followed by its payload.
  - The receiver checks each payload against the header's `check` field. It replies with a header that carries the response bit, plus the correct bit when the checksum matched.
  - The sender moves on only after a positive reply. Otherwise it writes the same segment again.
  - The receiver stops after accepting the segment whose `begin + length` equals `whole_length`.
- **The hex rendering of `src/crypto/hash.rs`** (`u8_to_ascii_char`, `bytes_to_string`, `to_sha256_str`).
  - The SHA-256 function itself is a parameter.
- **The `List`/`Node` deque of `tests/mrc_test.rs`.**
  - The source builds it from shared `Mrc` pointers. Here nodes live in a heap (a map from node identity to node), and `prev`/`next` hold identities.

Modules, one file each:

- `Bytes` (`bytes.dfy`): the byte type, fixed-width integer types, and an explicit little-endian codec.
- `MessageHeader` (`header.dfy`): the record, its flag bits and its 32-byte view. Also the frame reader that gets header and payload off the stream.
- `Sender` (`sender.dfy`): segmentation and the `send_bytes` loop.
- `Receiver` (`receiver.dfy`): the loop shared by `receive_bytes` and `receive_bytes_buf`.
- `MessageCenter` (`center.dfy`): the session and its three calls.
- `StopAndWait` (`exchange.dfy`): both loops run against a channel that may damage payloads.
- `Hex` (`hex.dfy`): the hash.rs code.
- `LinkedList` (`deque.dfy`): the mrc_test.rs deque.
- `Wrappers` (`wrappers.dfy`): `Option`.
- `Seqs` (`seqs.dfy`): facts about sequences that the stream and accumulator proofs share.

How the I/O is modelled:

- The TCP stream is abstract.
  - `send_bytes` is fed the sequence of acknowledgement headers it reads.
  - The receive calls are fed the sequence of (header, payload) arrivals they read.
  - An input that runs out means the call is still blocked. The results report this as `returned == false`.
- The integrity function is a parameter `cs`. The source hard-wires `default_checksum`, which returns 0 for every payload. Setting `cs := DefaultChecksum` gives the shipped behaviour exactly.
- The protocol lemmas hold for every `cs`. The one exception is `StopAndWait.RunKeepsSynced`, which needs a checksum that catches every single-byte error (`CatchesByteErrors`). `StopAndWait` shows:
  - the shipped function lets corruption through;
  - a byte-sum checksum meets that requirement.

Behaviour worth knowing, as the code has it:

- **Empty message.** `send_bytes("")` writes nothing, because the loop `while already_send_size < whole_len` never runs. No header is exchanged, so the next receive call keeps waiting and takes the following message's segments as its answer (`EmptyMessageIsNotDelivered`).
- **`is_sliced`.** It is always false (see Findings).
- **Header layout.** The module's doc comment (message.rs:10-17) lists 2-byte offsets and no `whole_length`. The model follows the code instead: the record sent is the packed struct, that is 1+1+2 bytes, then three `usize` fields, then 4 bytes. That is 32 bytes on a 64-bit target.

## Model

| member | source | states |
|---|---|---|
| MessageHeader.IsResponse | src/net/message.rs:94-96 | the response test is exactly "bit 0 of the flag byte is set" |
| MessageHeader.IsSliced | src/net/message.rs:99-101 | as written, the sliced test is false for every header, whatever its flag byte |
| MessageHeader.HasSlicedBit | src/net/message.rs:99-101 | the corrected sliced test holds exactly when bit 1 of the flag byte is set |
| MessageHeader.SlicedTestMissesSetBit | src/net/message.rs:99-114 | after set_sliced the corrected test sees the bit and the shipped test does not |
| MessageHeader.IsCorrect | src/net/message.rs:104-106 | the correct test is exactly "bit 4 of the flag byte is set" |
| MessageHeader.SetResponse | src/net/message.rs:108-110 | sets bit 0; every other bit and every other field is unchanged |
| MessageHeader.SetSliced | src/net/message.rs:112-114 | sets bit 1; every other bit and every other field is unchanged |
| MessageHeader.SetCorrect | src/net/message.rs:116-118 | sets bit 4; every other bit and every other field is unchanged |
| MessageHeader.SettersIdempotent | src/net/message.rs:108-118 | applying any setter twice is the same as applying it once |
| MessageHeader.Encode | src/net/message.rs:22-42 | the packed record's byte view is HEADER_SIZE = 32 bytes long |
| MessageHeader.DecodeEncode | src/net/message.rs:79-84 | reading back the byte view of a header gives every field back |
| MessageHeader.EncodeDecode | src/net/message.rs:86-91 | every 32-byte record read into a header is re-emitted unchanged, so the view is a bijection |
| MessageHeader.DefaultEncoding | src/net/message.rs:64-76 | the default header is the byte 1 (version) followed by 31 zero bytes |
| MessageHeader.ReadFrame | src/net/message.rs:199-203 | reading a header then `length` payload bytes either splits the stream into frame plus rest, or fails exactly when the stream is too short |
| MessageHeader.ReadFrameBytes | src/net/message.rs:199-203 | a frame whose payload has its declared length is read back whole, and the following bytes are left |
| MessageHeader.ReadWire | src/net/message.rs:171-173 | frames written back to back (header, then payload) are read back one for one, and reading carries on with what follows |
| Sender.BaseHeader | src/net/message.rs:148-155 | the scratch header before the loop is the default header with whole_length = message length, and its sliced bit is set exactly when the message is longer than 1024 bytes |
| Sender.SegmentLength | src/net/message.rs:161-165 | a segment holds between 1 and 1024 bytes, stays inside the message, and is short only when it is the last |
| Sender.SegmentAt | src/net/message.rs:160-169 | the frame written at a cursor is a data segment (neither response nor correct bit, sliced bit iff the message is over 1024 bytes) for the whole message length; it covers the next min(1024, left) bytes, ending at the message end exactly when at most 1024 were left; the message splits as the bytes before it, its payload, and the bytes after; it carries the checksum of exactly its payload |
| Sender.SegmentsPartition | src/net/message.rs:158-181 | the segments tile the message: the first starts at 0, each starts where the last ended, the final one ends at the length, and there are ceil(n/1024) of them whose payloads concatenate to the message |
| Sender.Advance | src/net/message.rs:175-180 | the cursor moves iff the reply has both the response and correct bits, and then moves by exactly the segment's length |
| Sender.Transmit | src/net/message.rs:157-184 | the loop exits iff the cursor reaches the end, reads one reply per written segment, and every written frame is the segment at its own offset; the first frame is at the starting cursor, and each next frame is at the offset the reply to the previous one moves the cursor to; nothing is written iff it starts at the end; if blocked, it has written one more frame than it read replies |
| Sender.TransmitEnds | src/net/message.rs:157-184 | a run that exits does so because the reply to its last frame moved the cursor to the end; a run still waiting has its cursor at the last frame it wrote; the scratch header holds the last frame's header, or is untouched if nothing was written |
| Sender.TransmitAllPositive | src/net/message.rs:158-181 | fed positive replies, the loop writes each segment exactly once, in order, and leaves the last segment's header in the scratch header |
| Sender.ResendOnNegative | src/net/message.rs:177-180 | a negative reply makes the loop write the very same frame again |
| Receiver.Reply | src/net/message.rs:205-214 | a reply is the default header with the segment's begin and length and the response bit, with the correct bit set iff the checksum matched, and no other bits |
| Receiver.RepliesAt | src/net/message.rs:205-219 | each arrival is answered by the reply to its own header and check outcome |
| Receiver.ReceiveFrom | src/net/message.rs:197-226 | the loop consumes arrivals up to the first accepted one that ends the message (or all of them, still waiting), collects exactly the accepted payloads in order, and writes one reply per arrival |
| Receiver.AcceptedAll | src/net/message.rs:209-211 | when every payload passes its check, the accumulator is all payloads concatenated |
| Receiver.SegmentsStopAtLast | src/net/message.rs:221-225 | every segment the sender writes passes its own check, and only the last one satisfies the stop test |
| Receiver.ReceiveReturnsIffCompletes | src/net/message.rs:197-226 | the receive loop returns iff some arrival it is fed is accepted and ends the message |
| Receiver.ReceiveSegments | src/net/message.rs:232-270 | fed the segments of a non-empty message followed by anything, the receiver stops right after the last segment, replies positively to each, and returns the message |
| MessageCenter.New | src/net/message.rs:129-137 | a new session has its stream attached, both buffers empty, and both scratch headers encoding as the byte 1 followed by 31 zero bytes |
| MessageCenter.SendBytes | src/net/message.rs:145-184 | send_bytes touches only recv_hd; without a stream it returns having written nothing; with one it writes nothing iff the message is empty, starts at offset 0, puts each next frame where the reply to the previous one moves the cursor, writes at most one frame more than it reads replies, returns iff it got a reply for every frame it wrote, and returns only once the reply to its last frame reaches the end; every frame is a true segment, and recv_hd ends up holding the last frame's header (the base header if none) |
| MessageCenter.ReceiveBytes | src/net/message.rs:232-270 | receive_bytes returns iff some arrival completes the message; it reads up to and including the first completing arrival and no further (all arrivals if it is still waiting); its result and recv_buf are the accepted payloads of the arrivals it read, with one reply each; recv_hd ends holding the last header read (unchanged with no stream or no arrival read) |
| MessageCenter.ReceiveBytesBuf | src/net/message.rs:191-229 | receive_bytes_buf computes the same bytes, replies, last header, arrivals read and return as receive_bytes, but into the caller's buffer, leaving recv_buf alone |
| MessageCenter.SendThenReceive | src/net/message.rs:295-318 | a full exchange of a non-empty message: the receiver returns the message after reading exactly its segments, and the sender, fed those replies, returns having written each segment once |
| MessageCenter.TwoMessages | src/net/message.rs:320-342 | two messages sent back to back are returned, each whole, by two receive_bytes_buf calls on the same session |
| MessageCenter.EmptyMessageIsNotDelivered | src/net/message.rs:157-183 | sending "" writes nothing, so the first receive call returns the next message and the second keeps waiting |
| MessageCenter.SegmentsOverTheWire | src/net/message.rs:171-173 | the frames read off the bytes the sender writes are exactly the sender's segments |
| StopAndWait.RunKeepsSynced | src/net/message.rs:205-225 | with a checksum that catches single-byte errors, the receiver always holds exactly the prefix the sender has moved past, and it returns exactly when the sender's loop exits |
| StopAndWait.RunCompletes | src/net/message.rs:158-181 | whatever the checksum, as many intact deliveries as there are segments left let the sender's loop exit |
| StopAndWait.ByteSumCatchesByteErrors | src/net/message.rs:140-142 | a byte sum modulo 2^32, in place of the default checksum, does catch every single-byte error |
| StopAndWait.DefaultChecksumLetsCorruptionThrough | src/net/message.rs:140-142 | the shipped checksum catches no error: a one-byte message with a flipped bit is accepted and returned corrupted |
| Hex.NibbleToAscii | src/crypto/hash.rs:7-14 | for every value below 16, the character is that value's lowercase hex digit |
| Hex.NibbleToAsciiChecked | src/crypto/hash.rs:7-14 | in a debug build the function panics exactly for inputs 0xA9 and up, agrees with the release build elsewhere, and gives the hex digit for every value below 16 |
| Hex.NibbleToAsciiWrongAbove15 | src/crypto/hash.rs:4-13 | with high bits set, the result is not a hex digit of the value: 0x10 gives 'g' in both builds; 0xD9 wraps to '0' in a release build and panics in a debug build |
| Hex.NibbleSplit | src/crypto/hash.rs:21 | masking then shifting gives the byte's high nibble (value / 16) and low nibble (value % 16) |
| Hex.HexPair | src/crypto/hash.rs:21-23 | a byte becomes two ASCII characters: the high nibble's digit, then the low nibble's |
| Hex.HexBytes | src/crypto/hash.rs:19-24 | the buffer holds the two digits of byte i at positions 2i and 2i+1 |
| Hex.BytesToString | src/crypto/hash.rs:18-26 | bytes_to_string never fails and yields 2n lowercase hex digits, high nibble first |
| Hex.DigitValueOfDigit | src/crypto/hash.rs:7-14 | each hex digit reads back as its own value |
| Hex.HexRoundTrip | src/crypto/hash.rs:18-26 | decoding the hex string gives the original bytes back |
| Hex.HexInjective | src/crypto/hash.rs:18-26 | distinct byte strings give distinct hex strings |
| Hex.NibbleExamples | src/crypto/hash.rs:70-78 | the test's three nibbles 0x0A, 0x2 and 0x0f print as 'a', '2' and 'f' |
| Hex.ToSha256Str | src/crypto/hash.rs:33-45 | to_sha256_str never panics and gives 64 hex digits that decode to the 32-byte digest |
| LinkedList.Contents | tests/mrc_test.rs:5-9 | walking next from the head reads exactly `length` values |
| LinkedList.New | tests/mrc_test.rs:37-43 | a new list satisfies the invariant and is empty |
| LinkedList.EndsLive | tests/mrc_test.rs:5-15 | head and tail are None iff the length is 0, point to live nodes with no prev (head) or next (tail), and coincide when there is one node |
| LinkedList.LinksConsistent | tests/mrc_test.rs:11-15 | in a valid list, a node's next has it as prev, its prev has it as next, and every pointer leads to a live node |
| LinkedList.PushBackSpec | tests/mrc_test.rs:45-58 | push_back keeps the invariant, adds one to the length, and appends the value at the back |
| LinkedList.PushFrontSpec | tests/mrc_test.rs:60-73 | push_front keeps the invariant, adds one to the length, and puts the value at the front |
| LinkedList.PopBackSpec | tests/mrc_test.rs:75-92 | pop_back gives None on an empty list and leaves it unchanged; otherwise it returns the last value, removes exactly it, takes one from the length, and leaves its node referenced by nothing (so try_unwrap succeeds) |
| LinkedList.PopFrontSpec | tests/mrc_test.rs:94-111 | pop_front gives None on an empty list and leaves it unchanged; otherwise it returns the first value, removes exactly it, takes one from the length, and leaves its node referenced by nothing |
| LinkedList.Drop | tests/mrc_test.rs:27-33 | dropping a list pops every value, last to first, and leaves no node behind |
| LinkedList.PushBackAll | tests/mrc_test.rs:128-130 | pushing values at the back in turn appends them in order |
| LinkedList.PushFrontAll | tests/mrc_test.rs:142-148 | pushing values at the front in turn puts them before the old contents, last pushed first |
| LinkedList.PopBacks | tests/mrc_test.rs:132-135 | repeated pop_back yields the contents from the back, then None once the list is empty |
| LinkedList.PopFronts | tests/mrc_test.rs:149-152 | repeated pop_front yields the contents from the front, then None once the list is empty |
| LinkedList.PushBackThenPopBack | tests/mrc_test.rs:125-136 | pushing n values at the back and then popping n+1 times from the back gives them in reverse order, then None |
| LinkedList.PushFrontThenPopFront | tests/mrc_test.rs:138-154 | pushing n values at the front and then popping n times from the front gives them in reverse order, and one more pop gives None |
| Bytes.FromToLE | src/net/message.rs:79-84 | reading back the n little-endian bytes of a number below 256^n gives the number |
| Bytes.ToFromLE | src/net/message.rs:86-91 | writing a byte string's number at the string's width gives the string back |

## Left out

- TCP I/O is not modelled. This covers `connect`, errors from `write_all`/`read_exact` (which the source returns as `Err` or panics on with `unwrap`), and a short read. The stream is an abstract sequence of replies or arrivals. Running out of input stands for a call that is still blocked.
- The native layout is modelled, not read. The source reinterprets the packed struct in place. The model uses an explicit little-endian codec with 8-byte `usize` (a 64-bit little-endian target). Other targets' widths and byte orders are not modelled.
- Three other items of message.rs are not part of this model: `sized_as_bytes`, `sized_as_bytes_mut`, and the `Message` trait with `send_message`. They are generic unsafe byte views, and a thin forwarding call.
- Receiver.EndsMessage takes the release-build reading of `begin + length`, which wraps modulo 2^64. A debug build panics on that overflow. Received headers can carry any values, so the difference matters only for malformed headers.
- Sender segments are bounded by the Rust slice limit (isize::MAX bytes), so the sender's `usize` arithmetic never wraps.
- Nothing is proved about liveness when the channel keeps damaging payloads. The source retries without bound. The model proves only that enough intact deliveries finish the exchange (`StopAndWait.RunCompletes`).
- The SHA-256 computation is a parameter of `Hex.ToSha256Str`, which assumes only that it returns 32 bytes. The `ToSha256` impls for `Vec<u8>`, `&str` and `String` just forward to the slice impl.
- Hex.NibbleToAscii takes the release-build reading of `n + 87`, which wraps modulo 256; the debug-build panic is modelled separately by `Hex.NibbleToAsciiChecked`. The two agree on every input the source passes (nibbles below 16).
- Hex.FromAscii models `String::from_utf8` only on the ASCII buffers `bytes_to_string` can produce. It treats any non-ASCII byte as an error, though UTF-8 accepts valid multi-byte sequences.
- LinkedList.Unreferenced stands in for `Mrc::try_unwrap` succeeding. The `Mrc` reference counting in src/ptr/mrc.rs is not part of this model.
- The deque's `length` is a `nat`: the `usize` counter cannot overflow while that many nodes are live.
- The `Person` type of `test_drop`, the `println!` output and the `gen_key_iv`/`test1` printing tests are left out: they only print.
- The fixed test instances (the values 1..=10) are covered by the general lemmas over any sequence of values.

## Findings

| source | as written | input that shows it | evidently intended | confidence | as-written member | corrected member |
|---|---|---|---|---|---|---|
| src/net/message.rs:99-101 | `is_sliced` tests `(flag & 0b0010) == 1`, which can never hold, because the masked value is 0 or 2 | a header after `set_sliced`, e.g. the sender's scratch header for a 1025-byte message (flag 0x02) | true exactly when bit 1 is set: `(flag & 0b0010) != 0` | high; not executed | MessageHeader.IsSliced | MessageHeader.HasSlicedBit |

=== FILE: bytes.dfy ===
/**
 * Machine-level value types shared by the message layer and the hex encoder:
 * bytes, the fixed-width unsigned integers of the header record, and an
 * explicit little-endian codec that stands in for the native byte view of
 * a packed record on a 64-bit little-endian target.
 */
module Bytes {

  type byte = bv8

  /** usize on the 64-bit targets the record layout assumes: W = 8 bytes. */
  const WORD_BYTES: nat := 8

  type u16 = x: int | 0 <= x < 0x1_0000
  type u32 = x: int | 0 <= x < 0x1_0000_0000
  type usize = x: int | 0 <= x < 0x1_0000_0000_0000_0000

  /** A Rust slice holds at most isize::MAX bytes. */
  const MAX_SLICE_LEN: nat := 0x7FFF_FFFF_FFFF_FFFF

  function Pow256(n: nat): (p: nat)
    ensures p > 0
  {
    if n == 0 then 1 else 256 * Pow256(n - 1)
  }

  lemma Pow256Widths()
    ensures Pow256(2) == 0x1_0000
    ensures Pow256(4) == 0x1_0000_0000
    ensures Pow256(8) == 0x1_0000_0000_0000_0000
  {
    assert Pow256(1) == 0x100;
    assert Pow256(2) == 0x1_0000;
    assert Pow256(3) == 0x100_0000;
    assert Pow256(4) == 0x1_0000_0000;
    assert Pow256(5) == 0x100_0000_0000;
    assert Pow256(6) == 0x1_0000_0000_0000;
    assert Pow256(7) == 0x100_0000_0000_0000;
  }

  /**
   * The byte whose value is k, counted up from zero in byte arithmetic: the
   * truncating cast `k as u8` for k below 256.
   */
  function ByteOf(k: nat): (b: byte)
    requires k < 256
  {
    if k == 0 then 0 else ByteOf(k - 1) + 1
  }

  /** ByteOf is the inverse of reading a byte as a number, in both directions. */
  lemma {:induction false} ByteOfValue(k: nat)
    requires k < 256
    ensures ByteOf(k) as int == k
  {
    if k > 0 {
      ByteOfValue(k - 1);
      assert ByteOf(k - 1) < 255;
    }
  }

  lemma {:induction false} ByteOfByte(b: byte)
    ensures ByteOf(b as int) == b
    decreases b as int
  {
    if b != 0 {
      ByteOfByte(b - 1);
      assert (b - 1) as int == b as int - 1;
    }
  }

  /** The least significant byte of x: the truncating cast `x as u8`. */
  function LowByte(x: nat): (b: byte)
    ensures b as int == x % 256
  {
    ByteOfValue(x % 256);
    ByteOf(x % 256)
  }

  /** A byte followed by 256 times anything has that byte as its low byte. */
  lemma LowByteOfByte(b: byte, rest: nat)
    ensures LowByte(b as nat + 256 * rest) == b
  {
    SplitLowByte(b as nat, rest);
    ByteInjective(LowByte(b as nat + 256 * rest), b);
  }

  /** Different bytes have different values. */
  lemma ByteValuesDiffer(a: byte, b: byte)
    requires a != b
    ensures a as int != b as int
  {
    if a as int == b as int {
      ByteInjective(a, b);
      assert false;
    }
  }

  /** Two bytes with the same value are the same byte. */
  lemma ByteInjective(a: byte, b: byte)
    requires a as int == b as int
    ensures a == b
  {
    ByteOfByte(a);
    ByteOfByte(b);
  }

  /** The n least significant bytes of x, least significant first. */
  function ToLE(x: nat, n: nat): (bs: seq<byte>)
    requires x < Pow256(n)
    ensures |bs| == n
  {
    if n == 0 then []
    else [LowByte(x)] + ToLE(x / 256, n - 1)
  }

  /** The unsigned number a little-endian byte string denotes. */
  function FromLE(bs: seq<byte>): (x: nat)
    ensures x < Pow256(|bs|)
  {
    if |bs| == 0 then 0
    else bs[0] as nat + 256 * FromLE(bs[1..])
  }

  /** The low byte and the rest of b + 256 * rest. */
  lemma SplitLowByte(b: nat, rest: nat)
    requires b < 256
    ensures (b + 256 * rest) % 256 == b && (b + 256 * rest) / 256 == rest
  {
  }

  /** Decoding the bytes of an encoded number gives the number back. */
  lemma {:induction false} FromToLE(x: nat, n: nat)
    requires x < Pow256(n)
    ensures FromLE(ToLE(x, n)) == x
  {
    if n > 0 {
      var bs := ToLE(x, n);
      assert bs[1..] == ToLE(x / 256, n - 1);
      FromToLE(x / 256, n - 1);
    }
  }

  /** Encoding a decoded byte string at its own width gives the bytes back. */
  lemma {:induction false} ToFromLE(bs: seq<byte>)
    ensures ToLE(FromLE(bs), |bs|) == bs
  {
    if |bs| > 0 {
      var x := FromLE(bs);
      var rest := FromLE(bs[1..]);
      assert x == bs[0] as nat + 256 * rest;
      SplitLowByte(bs[0] as nat, rest);
      ToFromLE(bs[1..]);
      LowByteOfByte(bs[0], rest);
      assert ToLE(x, |bs|) == [LowByte(x)] + ToLE(rest, |bs| - 1);
      assert [bs[0]] + bs[1..] == bs;
    }
  }

  /** Zero encodes as zero bytes at every width. */
  lemma {:induction false} ToLEZero(n: nat)
    ensures ToLE(0, n) == seq(n, _ => 0 as byte)
  {
    if n > 0 {
      ToLEZero(n - 1);
      assert ToLE(0, n) == [0 as byte] + seq(n - 1, _ => 0 as byte);
    }
  }
}

=== FILE: center.dfy ===
/**
 * The session object of src/net/message.rs (MessageCenter): two scratch
 * headers, two buffers and an optional stream, with the message-level
 * send_bytes, receive_bytes and receive_bytes_buf built from the sender and
 * receiver loops. The stream is abstract: the sender is fed the
 * acknowledgement headers it reads, the receiver the (header, payload)
 * arrivals it reads, and an exhausted feed means the call is still blocked.
 */
module MessageCenter {

  import opened Bytes
  import opened MessageHeader
  import opened Sender
  import opened Receiver

  /** The session's state; `attached` stands for `tcpstream` being Some. */
  datatype Center = Center(recvHd: Header, sendHd: Header, recvBuf: seq<byte>, sendBuf: seq<byte>, attached: bool)

  /**
   * MessageCenter::new: a stream attached, both buffers empty, and both
   * scratch headers reading on the wire as version 1 followed by zero bytes.
   */
  function New(): (c: Center)
    ensures c.attached && c.recvBuf == [] && c.sendBuf == []
    ensures Encode(c.recvHd) == Encode(c.sendHd) == [1 as byte] + seq(HEADER_SIZE - 1, _ => 0 as byte)
  {
    DefaultEncoding();
    Center(Default(), Default(), [], [], true)
  }

  /**
   * The outcome of send_bytes: the session afterwards, the frames written
   * (resends included), and whether the call returned Ok; when it did not,
   * it is still waiting for an acknowledgement.
   */
  datatype SendCall = SendCall(center: Center, written: seq<Frame>, returned: bool)

  /**
   * send_bytes. The scratch header it fills in is `recv_hd`; `send_hd` and
   * `send_buf` are never touched. Without a stream it returns Ok having
   * written nothing. With one, it writes the segment at offset 0 first, each
   * later frame at the offset the previous frame's acknowledgement leads to,
   * and returns Ok only once the acknowledgement of its last frame moves the
   * cursor to the end; `recv_hd` is left holding the last frame's header.
   */
  function SendBytes(c: Center, msg: seq<byte>, cs: Checksum, acks: seq<Header>): (r: SendCall)
    requires |msg| <= MAX_SLICE_LEN
    ensures r.center == c.(recvHd := r.center.recvHd)
    ensures !c.attached ==> r.returned && r.written == []
    ensures c.attached ==> (r.returned <==> |r.written| <= |acks|)
    ensures forall i :: 0 <= i < |r.written| ==>
              r.written[i].header.begin < |msg| && r.written[i] == SegmentAt(msg, cs, r.written[i].header.begin)
    ensures c.attached ==> (|r.written| == 0 <==> |msg| == 0)
    ensures |r.written| > 0 ==> r.written[0].header.begin == 0
    ensures |r.written| <= |acks| + 1
    ensures forall i :: 0 <= i < |r.written| - 1 ==>
              r.written[i + 1].header.begin == Advance(msg, r.written[i].header.begin, acks[i])
    ensures r.returned && |r.written| > 0 ==>
              Advance(msg, r.written[|r.written| - 1].header.begin, acks[|r.written| - 1]) == |msg|
    ensures r.center.recvHd == if |r.written| == 0 then BaseHeader(msg) else r.written[|r.written| - 1].header
  {
    var base := BaseHeader(msg);
    if !c.attached then SendCall(c.(recvHd := base), [], true)
    else
      var run := Transmit(msg, cs, base, 0, acks);
      TransmitEnds(msg, cs, base, 0, acks);
      SendCall(c.(recvHd := run.scratch), run.written, run.exited)
  }

  /**
   * The outcome of a receive call: the session afterwards, the bytes it
   * returns, the replies written, how many arrivals it read, and whether it
   * returned; when it did not, it is still waiting for a header.
   */
  datatype ReceiveCall = ReceiveCall(center: Center, data: seq<byte>, replies: seq<Header>, consumed: nat, returned: bool)

  /** The loop shared by both receive calls; `recv_hd` is left holding the last header read. */
  function ReceiveLoop(c: Center, cs: Checksum, arrivals: seq<Frame>): ReceiveCall
  {
    if !c.attached then ReceiveCall(c, [], [], 0, true)
    else
      var rec := Receive(cs, arrivals);
      var hd := if rec.consumed == 0 then c.recvHd else arrivals[rec.consumed - 1].header;
      ReceiveCall(c.(recvHd := hd), rec.data, rec.replies, rec.consumed, rec.finished)
  }

  /**
   * receive_bytes: clears the session's own buffer and reassembles into it.
   * The result is the accepted payloads of the arrivals read, in order;
   * `recv_hd` is left holding the last header read, and is untouched when
   * there is no stream or nothing was read.
   */
  function ReceiveBytes(c: Center, cs: Checksum, arrivals: seq<Frame>): (r: ReceiveCall)
    ensures r.center == c.(recvHd := r.center.recvHd, recvBuf := r.data)
    ensures !c.attached ==> r.returned && r.data == [] && r.consumed == 0
    ensures r.consumed <= |arrivals|
    ensures c.attached ==> r.data == AcceptedPayloads(cs, arrivals[..r.consumed])
    ensures c.attached ==> r.replies == Replies(cs, arrivals[..r.consumed])
    ensures c.attached ==> (r.returned <==> exists i :: 0 <= i < |arrivals| && Completes(cs, arrivals[i]))
    ensures c.attached ==> forall i :: 0 <= i < r.consumed - 1 ==> !Completes(cs, arrivals[i])
    ensures c.attached && r.returned ==> 0 < r.consumed && Completes(cs, arrivals[r.consumed - 1])
    ensures c.attached && !r.returned ==> r.consumed == |arrivals|
    ensures r.center.recvHd == if !c.attached || r.consumed == 0 then c.recvHd else arrivals[r.consumed - 1].header
  {
    var call := ReceiveLoop(c, cs, arrivals);
    var rec := Receive(cs, arrivals);
    assert c.attached ==> call.consumed == rec.consumed && call.returned == rec.finished;
    ReceiveReturnsIffCompletes(cs, arrivals);
    call.(center := call.center.(recvBuf := call.data))
  }

  /**
   * receive_bytes_buf: the same loop, reassembling into a caller buffer that
   * is cleared first; the session's own buffer is left alone.
   */
  function ReceiveBytesBuf(c: Center, buf: seq<byte>, cs: Checksum, arrivals: seq<Frame>): (r: ReceiveCall)
    ensures r.center == c.(recvHd := r.center.recvHd)
    ensures r.data == ReceiveBytes(c, cs, arrivals).data
    ensures r.replies == ReceiveBytes(c, cs, arrivals).replies
    ensures r.center.recvHd == ReceiveBytes(c, cs, arrivals).center.recvHd
    ensures r.returned == ReceiveBytes(c, cs, arrivals).returned
    ensures r.consumed == ReceiveBytes(c, cs, arrivals).consumed
  {
    ReceiveLoop(c, cs, arrivals)
  }

  /**
   * A full stop-and-wait exchange of a non-empty message: the receiver, fed
   * the sender's segments, returns the message after reading exactly those
   * segments; the sender, fed the receiver's replies, returns having written
   * each segment exactly once, and the replies are one per segment.
   */
  lemma SendThenReceive(sender: Center, receiver: Center, msg: seq<byte>, cs: Checksum, later: seq<Frame>)
    requires sender.attached && receiver.attached
    requires 0 < |msg| <= MAX_SLICE_LEN
    ensures var fs := Segments(msg, cs);
      var rc := ReceiveBytes(receiver, cs, fs + later);
      var sc := SendBytes(sender, msg, cs, rc.replies);
      && rc.returned && rc.data == msg && rc.consumed == |fs|
      && rc.center.recvBuf == msg
      && sc.returned && sc.written == fs
      && sc.center.recvHd == fs[|fs| - 1].header
  {
    var fs := Segments(msg, cs);
    ReceiveSegments(msg, cs, later);
    var rec := Receive(cs, fs + later);
    assert |rec.replies| == |fs|;
    TransmitAllPositive(msg, cs, BaseHeader(msg), 0, rec.replies);
  }

  /**
   * Two messages sent back to back are received by two calls into the same
   * caller buffer, each getting exactly its own bytes.
   */
  lemma TwoMessages(receiver: Center, buf: seq<byte>, m1: seq<byte>, m2: seq<byte>, cs: Checksum)
    requires receiver.attached
    requires 0 < |m1| <= MAX_SLICE_LEN && 0 < |m2| <= MAX_SLICE_LEN
    ensures var arrivals := Segments(m1, cs) + Segments(m2, cs);
      var first := ReceiveBytesBuf(receiver, buf, cs, arrivals);
      var second := ReceiveBytesBuf(first.center, first.data, cs, arrivals[first.consumed..]);
      && first.returned && first.data == m1
      && second.returned && second.data == m2
      && first.consumed + second.consumed == |arrivals|
  {
    var s1 := Segments(m1, cs);
    var s2 := Segments(m2, cs);
    var arrivals := s1 + s2;
    ReceiveSegments(m1, cs, s2);
    var first := ReceiveBytesBuf(receiver, buf, cs, arrivals);
    assert arrivals[first.consumed..] == s2 + [];
    ReceiveSegments(m2, cs, []);
  }

  /**
   * An empty message writes no segment at all, so the receiver keeps
   * waiting and takes the next message's segments as its answer: sending
   * "" then m delivers m to the first receive call and leaves the second
   * one waiting.
   */
  lemma EmptyMessageIsNotDelivered(sender: Center, receiver: Center, m: seq<byte>, cs: Checksum, acks: seq<Header>)
    requires sender.attached && receiver.attached
    requires 0 < |m| <= MAX_SLICE_LEN
    ensures var sc := SendBytes(sender, [], cs, acks);
      sc.returned && sc.written == []
    ensures var arrivals := Segments([], cs) + Segments(m, cs);
      var first := ReceiveBytes(receiver, cs, arrivals);
      var second := ReceiveBytes(first.center, cs, arrivals[first.consumed..]);
      && first.returned && first.data == m
      && !second.returned && second.data == []
  {
    var s := Segments(m, cs);
    assert Segments([], cs) + s == s + [];
    ReceiveSegments(m, cs, []);
    var first := ReceiveBytes(receiver, cs, s);
    assert s[first.consumed..] == [];
  }

  /** The receiver's frames can equally be read off the bytes the sender writes. */
  lemma SegmentsOverTheWire(msg: seq<byte>, cs: Checksum)
    requires |msg| <= MAX_SLICE_LEN
    ensures ReadFrames(Wire(Segments(msg, cs))) == Segments(msg, cs)
  {
    var fs := Segments(msg, cs);
    SegmentsPartition(msg, cs);
    forall i | 0 <= i < |fs|
      ensures |fs[i].payload| == fs[i].header.length
    {
      assert fs[i] == SegmentAt(msg, cs, fs[i].header.begin);
    }
    ReadWire(fs, []);
    assert Wire(fs) + [] == Wire(fs);
    assert ReadFrames([]) == [];
  }
}

=== FILE: deque.dfy ===
/**
 * The doubly-linked deque of tests/mrc_test.rs. Nodes live in a heap, a map
 * from node identities to Node records; `prev` and `next` hold identities
 * where the source holds shared pointers. The list's contents are read by
 * walking `next` from the head, and the invariant ties every pointer to its
 * position in that walk.
 */
module LinkedList {

  import opened Wrappers

  type Id = nat

  datatype Node<T> = Node(prev: Option<Id>, next: Option<Id>, value: T)

  /** `nextId` is the next unused identity: allocation never reuses a live node. */
  datatype List<T> = List(head: Option<Id>, tail: Option<Id>, length: nat, nodes: map<Id, Node<T>>, nextId: Id)

  /**
   * `ids` is a run of nodes linked both ways: the first one's `prev` is
   * `before`, each one's `next` is the one after it (None for the last), and
   * each one's `prev` is the one before it.
   */
  ghost predicate Chain<T>(nodes: map<Id, Node<T>>, ids: seq<Id>, before: Option<Id>)
    decreases |ids|
  {
    |ids| == 0 ||
    (&& ids[0] in nodes
     && nodes[ids[0]].prev == before
     && nodes[ids[0]].next == (if |ids| == 1 then None else Some(ids[1]))
     && Chain(nodes, ids[1..], Some(ids[0])))
  }

  /** The same links stated position by position. */
  ghost predicate LinkedAt<T>(nodes: map<Id, Node<T>>, ids: seq<Id>, before: Option<Id>)
  {
    && (forall i :: 0 <= i < |ids| ==> ids[i] in nodes)
    && (|ids| > 0 ==> nodes[ids[0]].prev == before && nodes[ids[|ids| - 1]].next == None)
    && (forall i :: 0 < i < |ids| ==> nodes[ids[i]].prev == Some(ids[i - 1]))
    && (forall i :: 0 < i < |ids| ==> nodes[ids[i - 1]].next == Some(ids[i]))
  }

  lemma {:induction false} ChainLinkedAt<T>(nodes: map<Id, Node<T>>, ids: seq<Id>, before: Option<Id>)
    ensures Chain(nodes, ids, before) <==> LinkedAt(nodes, ids, before)
    decreases |ids|
  {
    if |ids| > 0 {
      var rest := ids[1..];
      assert forall i :: 0 <= i < |rest| ==> rest[i] == ids[i + 1];
      ChainLinkedAt(nodes, rest, Some(ids[0]));
    }
  }

  /** The identities in an order, as a set. */
  ghost function Elems(ids: seq<Id>): set<Id>
    decreases |ids|
  {
    if |ids| == 0 then {} else {ids[0]} + Elems(ids[1..])
  }

  lemma {:induction false} ElemsIn(ids: seq<Id>)
    ensures forall x :: x in Elems(ids) <==> x in ids
    decreases |ids|
  {
    if |ids| > 0 {
      ElemsIn(ids[1..]);
      assert ids == [ids[0]] + ids[1..];
    }
  }

  lemma {:induction false} ElemsAppend(a: seq<Id>, b: seq<Id>)
    ensures Elems(a + b) == Elems(a) + Elems(b)
    decreases |a|
  {
    if |a| > 0 {
      ElemsAppend(a[1..], b);
      assert (a + b)[1..] == a[1..] + b;
    } else {
      assert a + b == b;
    }
  }

  /** No node identity occurs twice. */
  ghost predicate Distinct(ids: seq<Id>)
    decreases |ids|
  {
    |ids| == 0 || (ids[0] !in ids[1..] && Distinct(ids[1..]))
  }

  lemma {:induction false} DistinctAt(ids: seq<Id>)
    ensures Distinct(ids) <==> forall i, j :: 0 <= i < j < |ids| ==> ids[i] != ids[j]
    decreases |ids|
  {
    if |ids| > 0 {
      var rest := ids[1..];
      assert forall i :: 0 <= i < |rest| ==> rest[i] == ids[i + 1];
      DistinctAt(rest);
    }
  }

  /**
   * The node order `ids` explains the whole heap: one identity per element,
   * no repeats, exactly the live nodes, all below `nextId`, each node
   * pointing at its neighbours in the order, and head and tail at its ends.
   */
  ghost predicate Linked<T>(l: List<T>, ids: seq<Id>)
  {
    && |ids| == l.length
    && Distinct(ids)
    && l.nodes.Keys == Elems(ids)
    && (forall x :: x in l.nodes ==> x < l.nextId)
    && Chain(l.nodes, ids, None)
    && l.head == (if |ids| == 0 then None else Some(ids[0]))
    && l.tail == (if |ids| == 0 then None else Some(ids[|ids| - 1]))
  }

  /** Following `next` from `at` for at most n nodes. */
  function Walk<T>(nodes: map<Id, Node<T>>, at: Option<Id>, n: nat): seq<Id>
    decreases n
  {
    if n == 0 || at.None? || at.value !in nodes then []
    else [at.value] + Walk(nodes, nodes[at.value].next, n - 1)
  }

  /** The node order as the source would traverse it: from the head, `length` steps. */
  function Order<T>(l: List<T>): seq<Id>
  {
    Walk(l.nodes, l.head, l.length)
  }

  ghost predicate Valid<T>(l: List<T>)
  {
    Linked(l, Order(l))
  }

  /** The values in list order, front to back. */
  function Contents<T>(l: List<T>): (s: seq<T>)
    requires Valid(l)
    ensures |s| == l.length
  {
    var ids := Order(l);
    OrderLive(l, ids);
    seq(|ids|, i requires 0 <= i < |ids| => l.nodes[ids[i]].value)
  }

  /** Following the `next` pointers of a chain from its first node visits exactly the chain. */
  lemma {:induction false} WalkChain<T>(nodes: map<Id, Node<T>>, ids: seq<Id>, before: Option<Id>)
    requires Chain(nodes, ids, before)
    ensures |ids| > 0 ==> Walk(nodes, Some(ids[0]), |ids|) == ids
    decreases |ids|
  {
    if |ids| > 1 {
      WalkChain(nodes, ids[1..], Some(ids[0]));
      assert [ids[0]] + ids[1..] == ids;
    }
  }

  /** An order that explains the heap is the order the walk finds, so the list is valid. */
  lemma LinkedOrder<T>(l: List<T>, ids: seq<Id>)
    requires Linked(l, ids)
    ensures Order(l) == ids && Valid(l)
  {
    WalkChain(l.nodes, ids, None);
  }

  /** List::new: no nodes, no head, no tail, length 0. */
  function New<T>(): (l: List<T>)
    ensures Valid(l) && Contents(l) == []
  {
    var l := List(None, None, 0, map[], 0);
    LinkedOrder(l, []);
    l
  }

  /** The end pointers agree with the length and point at live nodes. */
  lemma EndsLive<T>(l: List<T>)
    requires Valid(l)
    ensures l.head.None? <==> l.length == 0
    ensures l.tail.None? <==> l.length == 0
    ensures l.head.Some? ==> l.head.value in l.nodes
    ensures l.tail.Some? ==> l.tail.value in l.nodes
    ensures l.head.Some? ==> l.nodes[l.head.value].prev.None?
    ensures l.tail.Some? ==> l.nodes[l.tail.value].next.None?
    ensures l.length == 1 ==> l.head == l.tail
  {
    var ids := Order(l);
    ChainLinkedAt(l.nodes, ids, None);
    if |ids| > 0 {
      assert l.head.value == ids[0];
      assert l.tail.value == ids[|ids| - 1];
    }
  }

  /**
   * push_back: a fresh node becomes the tail, linked after the old tail,
   * or becomes the head too when the list was empty.
   */
  function PushBack<T>(l: List<T>, v: T): List<T>
    requires Valid(l)
  {
    var e := l.nextId;
    EndsLive(l);
    match l.tail
    case Some(t) =>
      List(l.head, Some(e), l.length + 1, l.nodes[t := l.nodes[t].(next := Some(e))][e := Node(Some(t), None, v)], l.nextId + 1)
    case None =>
      List(Some(e), Some(e), l.length + 1, l.nodes[e := Node(None, None, v)], l.nextId + 1)
  }

  /** Every node of a linked order is live and below `nextId`. */
  lemma OrderLive<T>(l: List<T>, ids: seq<Id>)
    requires Linked(l, ids)
    ensures forall i :: 0 <= i < |ids| ==> ids[i] in l.nodes && ids[i] < l.nextId
  {
    ElemsIn(ids);
    forall i | 0 <= i < |ids|
      ensures ids[i] in l.nodes
    {
      assert ids[i] in ids;
    }
  }

  lemma PushBackLinkedAt<T>(l: List<T>, v: T)
    requires Valid(l)
    ensures LinkedAt(PushBack(l, v).nodes, Order(l) + [l.nextId], None)
  {
    var ids := Order(l);
    var n := |ids|;
    var e := l.nextId;
    var ids' := ids + [e];
    var nodes := PushBack(l, v).nodes;
    ChainLinkedAt(l.nodes, ids, None);
    OrderLive(l, ids);
    assert ids'[n] == e;
    if n > 0 {
      var t := ids[n - 1];
      DistinctAt(ids);
      assert nodes == l.nodes[t := l.nodes[t].(next := Some(e))][e := Node(Some(t), None, v)];
      forall i | 0 <= i < n
        ensures ids'[i] == ids[i] && ids[i] in nodes
        ensures nodes[ids[i]].prev == l.nodes[ids[i]].prev
        ensures i < n - 1 ==> nodes[ids[i]].next == l.nodes[ids[i]].next
      {
      }
    }
  }

  /** The heap after push_back is explained by the old order with the new node at the end. */
  lemma PushBackLinked<T>(l: List<T>, v: T)
    requires Valid(l)
    ensures Linked(PushBack(l, v), Order(l) + [l.nextId])
  {
    var ids := Order(l);
    var e := l.nextId;
    var r := PushBack(l, v);
    var ids' := ids + [e];
    PushBackLinkedAt(l, v);
    ChainLinkedAt(r.nodes, ids', None);
    OrderLive(l, ids);
    DistinctAt(ids);
    DistinctAt(ids');
    ElemsAppend(ids, [e]);
    assert Elems([e]) == {e};
    assert r.nodes.Keys == l.nodes.Keys + {e};
  }

  /** push_back appends the value at the back and adds one to the length. */
  lemma PushBackSpec<T>(l: List<T>, v: T)
    requires Valid(l)
    ensures var r := PushBack(l, v);
      Valid(r) && r.length == l.length + 1 && Contents(r) == Contents(l) + [v]
  {
    var ids := Order(l);
    var r := PushBack(l, v);
    PushBackLinked(l, v);
    LinkedOrder(r, ids + [l.nextId]);
    OrderLive(l, ids);
  }

  /**
   * push_front: a fresh node becomes the head, linked before the old head,
   * or becomes the tail too when the list was empty.
   */
  function PushFront<T>(l: List<T>, v: T): List<T>
    requires Valid(l)
  {
    var e := l.nextId;
    EndsLive(l);
    match l.head
    case Some(h) =>
      List(Some(e), l.tail, l.length + 1, l.nodes[h := l.nodes[h].(prev := Some(e))][e := Node(None, Some(h), v)], l.nextId + 1)
    case None =>
      List(Some(e), Some(e), l.length + 1, l.nodes[e := Node(None, None, v)], l.nextId + 1)
  }

  lemma PushFrontLinkedAt<T>(l: List<T>, v: T)
    requires Valid(l)
    ensures LinkedAt(PushFront(l, v).nodes, [l.nextId] + Order(l), None)
  {
    var ids := Order(l);
    var n := |ids|;
    var e := l.nextId;
    var ids' := [e] + ids;
    var nodes := PushFront(l, v).nodes;
    ChainLinkedAt(l.nodes, ids, None);
    OrderLive(l, ids);
    assert ids'[0] == e;
    if n > 0 {
      var h := ids[0];
      DistinctAt(ids);
      assert nodes == l.nodes[h := l.nodes[h].(prev := Some(e))][e := Node(None, Some(h), v)];
      forall i | 0 <= i < n
        ensures ids'[i + 1] == ids[i] && ids[i] in nodes
        ensures nodes[ids[i]].next == l.nodes[ids[i]].next
        ensures 0 < i ==> nodes[ids[i]].prev == l.nodes[ids[i]].prev
      {
      }
    }
  }

  /** The heap after push_front is explained by the new node followed by the old order. */
  lemma PushFrontLinked<T>(l: List<T>, v: T)
    requires Valid(l)
    ensures Linked(PushFront(l, v), [l.nextId] + Order(l))
  {
    var ids := Order(l);
    var e := l.nextId;
    var r := PushFront(l, v);
    var ids' := [e] + ids;
    PushFrontLinkedAt(l, v);
    ChainLinkedAt(r.nodes, ids', None);
    OrderLive(l, ids);
    DistinctAt(ids);
    assert forall i :: 0 <= i < |ids| ==> ids'[i + 1] == ids[i];
    DistinctAt(ids');
    assert ids'[1..] == ids;
    assert r.nodes.Keys == l.nodes.Keys + {e};
  }

  /** push_front puts the value at the front and adds one to the length. */
  lemma PushFrontSpec<T>(l: List<T>, v: T)
    requires Valid(l)
    ensures var r := PushFront(l, v);
      Valid(r) && r.length == l.length + 1 && Contents(r) == [v] + Contents(l)
  {
    var ids := Order(l);
    var r := PushFront(l, v);
    var e := l.nextId;
    var ids' := [e] + ids;
    PushFrontLinked(l, v);
    LinkedOrder(r, ids');
    OrderLive(l, ids);
    PushFrontKeepsValues(l, v);
    var cl, cr := Contents(l), Contents(r);
    forall k | 0 <= k < |cl|
      ensures cr[k + 1] == cl[k]
    {
      assert ids'[k + 1] == ids[k];
      assert cr[k + 1] == r.nodes[ids[k]].value;
    }
    assert cr[0] == r.nodes[e].value == v;
    assert cr == [v] + cl;
  }

  /** push_front keeps every value already in the list, and the new node holds v. */
  lemma PushFrontKeepsValues<T>(l: List<T>, v: T)
    requires Valid(l)
    ensures var r := PushFront(l, v);
      && l.nextId in r.nodes && r.nodes[l.nextId].value == v
      && forall x | x in l.nodes :: x in r.nodes && r.nodes[x].value == l.nodes[x].value
  {
    EndsLive(l);
  }

  /** No pointer of the list, and no node it keeps, refers to `id`: the node's only owner is the caller. */
  ghost predicate Unreferenced<T>(l: List<T>, id: Id)
  {
    && id !in l.nodes
    && l.head != Some(id) && l.tail != Some(id)
    && forall x :: x in l.nodes ==> l.nodes[x].prev != Some(id) && l.nodes[x].next != Some(id)
  }

  /** A node outside the order is referred to by nothing in the list. */
  lemma OutsideUnreferenced<T>(l: List<T>, ids: seq<Id>, id: Id)
    requires Linked(l, ids) && id !in ids
    ensures Unreferenced(l, id)
  {
    ElemsIn(ids);
    ChainLinkedAt(l.nodes, ids, None);
    forall x | x in l.nodes
      ensures l.nodes[x].prev != Some(id) && l.nodes[x].next != Some(id)
    {
      var i :| 0 <= i < |ids| && ids[i] == x;
      if i + 1 < |ids| {
        assert ids[i + 1] in ids;
      }
      if i > 0 {
        assert ids[i - 1] in ids;
      }
    }
  }

  /**
   * pop_back: None on an empty list; otherwise the tail's value, with the
   * node before it (if any) as the new tail, and the head cleared when the
   * list had one node.
   */
  function PopBack<T>(l: List<T>): (List<T>, Option<T>)
    requires Valid(l)
  {
    EndsLive(l);
    match l.tail
    case None => (l, None)
    case Some(t) =>
      var last := l.nodes[t];
      var nodes := l.nodes - {t};
      LinksConsistent(l, t);
      match last.prev
      case Some(p) => (List(l.head, Some(p), l.length - 1, nodes[p := nodes[p].(next := None)], l.nextId), Some(last.value))
      case None => (List(None, None, l.length - 1, nodes, l.nextId), Some(last.value))
  }

  lemma PopBackLinkedAt<T>(l: List<T>)
    requires Valid(l) && l.length > 0
    ensures LinkedAt(PopBack(l).0.nodes, Order(l)[..l.length - 1], None)
  {
    var ids := Order(l);
    var n := |ids|;
    var ids' := ids[..n - 1];
    var t := ids[n - 1];
    var nodes := PopBack(l).0.nodes;
    ChainLinkedAt(l.nodes, ids, None);
    OrderLive(l, ids);
    DistinctAt(ids);
    if n > 1 {
      var p := ids[n - 2];
      assert nodes == (l.nodes - {t})[p := l.nodes[p].(next := None)];
      forall i | 0 <= i < n - 1
        ensures ids'[i] == ids[i] && ids[i] in nodes
        ensures nodes[ids[i]].prev == l.nodes[ids[i]].prev
        ensures i < n - 2 ==> nodes[ids[i]].next == l.nodes[ids[i]].next
      {
      }
    }
  }

  lemma PopBackKeys<T>(l: List<T>)
    requires Valid(l) && l.length > 0
    ensures PopBack(l).0.nodes.Keys == Elems(Order(l)[..l.length - 1])
  {
    var ids := Order(l);
    var n := |ids|;
    var ids' := ids[..n - 1];
    var t := ids[n - 1];
    EndsLive(l);
    LinksConsistent(l, t);
    assert PopBack(l).0.nodes.Keys == l.nodes.Keys - {t};
    assert ids == ids' + [t];
    ElemsAppend(ids', [t]);
    assert Elems([t]) == {t};
    DistinctAt(ids);
    ElemsIn(ids');
    assert t !in Elems(ids');
  }

  /** After pop_back the heap is explained by the old order without its last node. */
  lemma PopBackLinked<T>(l: List<T>)
    requires Valid(l) && l.length > 0
    ensures Linked(PopBack(l).0, Order(l)[..l.length - 1])
  {
    var ids := Order(l);
    var n := |ids|;
    var r := PopBack(l).0;
    var ids' := ids[..n - 1];
    PopBackLinkedAt(l);
    ChainLinkedAt(r.nodes, ids', None);
    PopBackKeys(l);
    DistinctAt(ids);
    assert forall i :: 0 <= i < n - 1 ==> ids'[i] == ids[i];
    DistinctAt(ids');
    OrderLive(l, ids);
    EndsLive(l);
    LinksConsistent(l, ids[n - 1]);
    assert r.nodes.Keys <= l.nodes.Keys;
    ChainLinkedAt(l.nodes, ids, None);
    if n > 1 {
      assert l.nodes[ids[n - 1]].prev == Some(ids[n - 2]);
    }
  }

  /**
   * pop_back on an empty list returns None and leaves it as it is; on a
   * non-empty one it returns the last value, drops it from the contents,
   * takes one from the length, and leaves the old tail node unlinked from
   * everything, which is why the source's `try_unwrap` on it succeeds.
   */
  lemma PopBackSpec<T>(l: List<T>)
    requires Valid(l)
    ensures var (r, out) := PopBack(l);
      && Valid(r)
      && (l.length == 0 ==> r == l && out.None?)
      && (l.length > 0 ==>
            && r.length == l.length - 1
            && out == Some(Contents(l)[l.length - 1])
            && Contents(r) == Contents(l)[..l.length - 1]
            && Unreferenced(r, l.tail.value))
  {
    EndsLive(l);
    if l.length > 0 {
      var ids := Order(l);
      var n := |ids|;
      var r := PopBack(l).0;
      var ids' := ids[..n - 1];
      var t := ids[n - 1];
      PopBackLinked(l);
      LinkedOrder(r, ids');
      OrderLive(r, ids');
      OrderLive(l, ids);
      DistinctAt(ids);
      forall i | 0 <= i < n - 1
        ensures ids'[i] == ids[i] && ids[i] != t && ids[i] in r.nodes
        ensures r.nodes[ids[i]].value == l.nodes[ids[i]].value
      {
        assert ids'[i] in r.nodes;
      }
      OutsideUnreferenced(r, ids', t);
    }
  }

  /**
   * pop_front: None on an empty list; otherwise the head's value, with the
   * node after it (if any) as the new head, and the tail cleared when the
   * list had one node.
   */
  function PopFront<T>(l: List<T>): (List<T>, Option<T>)
    requires Valid(l)
  {
    EndsLive(l);
    match l.head
    case None => (l, None)
    case Some(h) =>
      var first := l.nodes[h];
      var nodes := l.nodes - {h};
      LinksConsistent(l, h);
      match first.next
      case Some(s) => (List(Some(s), l.tail, l.length - 1, nodes[s := nodes[s].(prev := None)], l.nextId), Some(first.value))
      case None => (List(None, None, l.length - 1, nodes, l.nextId), Some(first.value))
  }

  lemma PopFrontLinkedAt<T>(l: List<T>)
    requires Valid(l) && l.length > 0
    ensures LinkedAt(PopFront(l).0.nodes, Order(l)[1..], None)
  {
    var ids := Order(l);
    var n := |ids|;
    var ids' := ids[1..];
    var h := ids[0];
    var nodes := PopFront(l).0.nodes;
    ChainLinkedAt(l.nodes, ids, None);
    OrderLive(l, ids);
    DistinctAt(ids);
    if n > 1 {
      var s := ids[1];
      assert nodes == (l.nodes - {h})[s := l.nodes[s].(prev := None)];
      forall i | 1 <= i < n
        ensures ids'[i - 1] == ids[i] && ids[i] in nodes
        ensures nodes[ids[i]].next == l.nodes[ids[i]].next
        ensures 1 < i ==> nodes[ids[i]].prev == l.nodes[ids[i]].prev
      {
      }
    }
  }

  /** After pop_front the heap is explained by the old order without its first node. */
  lemma PopFrontLinked<T>(l: List<T>)
    requires Valid(l) && l.length > 0
    ensures Linked(PopFront(l).0, Order(l)[1..])
  {
    var ids := Order(l);
    var r := PopFront(l).0;
    var ids' := ids[1..];
    var h := ids[0];
    PopFrontLinkedAt(l);
    ChainLinkedAt(r.nodes, ids', None);
    ChainLinkedAt(l.nodes, ids, None);
    OrderLive(l, ids);
    ElemsIn(ids');
    assert r.nodes.Keys == l.nodes.Keys - {h};
  }

  /**
   * pop_front on an empty list returns None and leaves it as it is; on a
   * non-empty one it returns the first value, drops it from the contents,
   * takes one from the length, and leaves the old head node unlinked.
   */
  lemma PopFrontSpec<T>(l: List<T>)
    requires Valid(l)
    ensures var (r, out) := PopFront(l);
      && Valid(r)
      && (l.length == 0 ==> r == l && out.None?)
      && (l.length > 0 ==>
            && r.length == l.length - 1
            && out == Some(Contents(l)[0])
            && Contents(r) == Contents(l)[1..]
            && Unreferenced(r, l.head.value))
  {
    EndsLive(l);
    if l.length > 0 {
      PopFrontContents(l);
      PopFrontUnlinks(l);
    }
  }

  /** The values pop_front leaves behind, and the one it returns. */
  lemma PopFrontContents<T>(l: List<T>)
    requires Valid(l) && l.length > 0
    ensures var (r, out) := PopFront(l);
      && Valid(r)
      && r.length == l.length - 1
      && out == Some(Contents(l)[0])
      && Contents(r) == Contents(l)[1..]
  {
    EndsLive(l);
    var ids := Order(l);
    var r := PopFront(l).0;
    var ids' := ids[1..];
    PopFrontLinked(l);
    LinkedOrder(r, ids');
    OrderLive(r, ids');
    PopFrontKeepsValues(l);
    var cl, cr := Contents(l), Contents(r);
    forall k | 0 <= k < |cr|
      ensures cr[k] == cl[k + 1]
    {
      assert ids'[k] == ids[k + 1];
      assert cr[k] == r.nodes[ids'[k]].value;
    }
    assert cr == cl[1..];
  }

  /** Every node pop_front keeps holds the value it held before. */
  lemma PopFrontKeepsValues<T>(l: List<T>)
    requires Valid(l) && l.length > 0
    ensures var r := PopFront(l).0;
      forall x | x in r.nodes :: x in l.nodes && r.nodes[x].value == l.nodes[x].value
  {
    EndsLive(l);
    var h := l.head.value;
    var r := PopFront(l).0;
    LinksConsistent(l, h);
    match l.nodes[h].next
    case Some(s) =>
      assert r.nodes == (l.nodes - {h})[s := l.nodes[s].(prev := None)];
    case None =>
      assert r.nodes == l.nodes - {h};
  }

  /** The node pop_front took out is referred to by nothing that is left. */
  lemma PopFrontUnlinks<T>(l: List<T>)
    requires Valid(l) && l.length > 0
    ensures Unreferenced(PopFront(l).0, l.head.value)
  {
    EndsLive(l);
    var ids := Order(l);
    var r := PopFront(l).0;
    var ids' := ids[1..];
    var h := ids[0];
    PopFrontLinked(l);
    LinkedOrder(r, ids');
    OrderLive(r, ids');
    DistinctAt(ids);
    forall i | 0 <= i < |ids'|
      ensures ids'[i] != h
    {
      assert ids'[i] == ids[i + 1];
    }
    OutsideUnreferenced(r, ids', h);
  }

  /**
   * Link consistency: a node's successor has it as predecessor and its
   * predecessor has it as successor, and every pointer leads to a live node.
   */
  lemma LinksConsistent<T>(l: List<T>, x: Id)
    requires Valid(l) && x in l.nodes
    ensures var n := l.nodes[x];
      && (n.next.Some? ==> n.next.value in l.nodes && l.nodes[n.next.value].prev == Some(x))
      && (n.prev.Some? ==> n.prev.value in l.nodes && l.nodes[n.prev.value].next == Some(x))
  {
    var ids := Order(l);
    ChainLinkedAt(l.nodes, ids, None);
    ElemsIn(ids);
    var i :| 0 <= i < |ids| && ids[i] == x;
    if i + 1 < |ids| {
      assert l.nodes[ids[i + 1]].prev == Some(ids[i]);
    }
    if i > 0 {
      assert l.nodes[ids[i - 1]].next == Some(ids[i]);
    }
  }

  /**
   * Drop for List: pop from the back until pop_back returns None. The
   * values are dropped last to first and the list ends with no node left.
   */
  method Drop<T>(l: List<T>) returns (dropped: seq<T>, r: List<T>)
    requires Valid(l)
    ensures Valid(r) && r.length == 0 && r.head.None? && r.tail.None? && r.nodes == map[]
    ensures |dropped| == l.length
    ensures forall i :: 0 <= i < |dropped| ==> dropped[i] == Contents(l)[l.length - 1 - i]
  {
    var all := Contents(l);
    r := l;
    dropped := [];
    var popped := PopBack(r);
    while popped.1.Some?
      invariant Valid(r) && popped == PopBack(r)
      invariant r.length + |dropped| == l.length
      invariant Contents(r) == all[..r.length]
      invariant forall i :: 0 <= i < |dropped| ==> dropped[i] == all[l.length - 1 - i]
      decreases r.length
    {
      PopBackSpec(r);
      dropped := dropped + [popped.1.value];
      r := popped.0;
      popped := PopBack(r);
    }
    PopBackSpec(r);
    assert Order(r) == [];
    assert r.nodes.Keys == {};
  }

  /** push_back of each value in turn: they follow the old contents in order. */
  function PushBackAll<T>(l: List<T>, xs: seq<T>): (r: List<T>)
    requires Valid(l)
    ensures Valid(r) && Contents(r) == Contents(l) + xs
    decreases |xs|
  {
    if |xs| == 0 then l
    else
      PushBackSpec(l, xs[0]);
      var r := PushBackAll(PushBack(l, xs[0]), xs[1..]);
      assert Contents(l) + [xs[0]] + xs[1..] == Contents(l) + xs;
      r
  }

  /** push_front of each value in turn: they end up before the old contents, last pushed first. */
  function PushFrontAll<T>(l: List<T>, xs: seq<T>): (r: List<T>)
    requires Valid(l)
    ensures Valid(r) && |Contents(r)| == |xs| + |Contents(l)|
    ensures forall i :: 0 <= i < |xs| ==> Contents(r)[i] == xs[|xs| - 1 - i]
    ensures Contents(r)[|xs|..] == Contents(l)
    decreases |xs|
  {
    if |xs| == 0 then l
    else
      PushFrontSpec(l, xs[0]);
      var l' := PushFront(l, xs[0]);
      var r := PushFrontAll(l', xs[1..]);
      assert Contents(r)[|xs| - 1..] == Contents(l');
      assert Contents(r)[|xs|..] == Contents(l')[1..];
      r
  }

  /** n calls of pop_back: the contents from the back, then None once the list is empty. */
  function PopBacks<T>(l: List<T>, n: nat): (outs: seq<Option<T>>)
    requires Valid(l)
    ensures |outs| == n
    ensures forall i :: 0 <= i < n ==>
              outs[i] == if i < l.length then Some(Contents(l)[l.length - 1 - i]) else None
    decreases n
  {
    if n == 0 then []
    else
      PopBackSpec(l);
      var p := PopBack(l);
      var rest := PopBacks(p.0, n - 1);
      var outs := [p.1] + rest;
      forall i | 0 <= i < n
        ensures outs[i] == if i < l.length then Some(Contents(l)[l.length - 1 - i]) else None
      {
        if i == 0 {
          assert outs[i] == p.1;
        } else {
          assert outs[i] == rest[i - 1];
          if i < l.length {
            assert Contents(p.0)[p.0.length - 1 - (i - 1)] == Contents(l)[l.length - 1 - i];
          }
        }
      }
      outs
  }

  /** n calls of pop_front: the contents from the front, then None once the list is empty. */
  function PopFronts<T>(l: List<T>, n: nat): (outs: seq<Option<T>>)
    requires Valid(l)
    ensures |outs| == n
    ensures forall i :: 0 <= i < n ==>
              outs[i] == if i < l.length then Some(Contents(l)[i]) else None
    decreases n
  {
    if n == 0 then []
    else
      PopFrontSpec(l);
      var p := PopFront(l);
      var rest := PopFronts(p.0, n - 1);
      var outs := [p.1] + rest;
      forall i | 0 <= i < n
        ensures outs[i] == if i < l.length then Some(Contents(l)[i]) else None
      {
        if i == 0 {
          assert outs[i] == p.1;
        } else {
          assert outs[i] == rest[i - 1];
          if i < l.length {
            assert Contents(p.0)[i - 1] == Contents(l)[i];
          }
        }
      }
      outs
  }

  /** Popping a list of xs from the back one time more than it holds: xs backwards, then None. */
  lemma PopBacksReverse<T>(l: List<T>, xs: seq<T>)
    requires Valid(l) && Contents(l) == xs
    ensures var outs := PopBacks(l, |xs| + 1);
      && (forall i :: 0 <= i < |xs| ==> outs[i] == Some(xs[|xs| - 1 - i]))
      && outs[|xs|] == None
  {
  }

  /**
   * The first test, for any values: push_back each of xs, then pop_back one
   * time more than there are values, gives xs backwards and then None.
   */
  lemma PushBackThenPopBack<T>(xs: seq<T>)
    ensures var outs := PopBacks(PushBackAll(New<T>(), xs), |xs| + 1);
      && (forall i :: 0 <= i < |xs| ==> outs[i] == Some(xs[|xs| - 1 - i]))
      && outs[|xs|] == None
  {
    var e := New<T>();
    assert Contents(e) + xs == xs;
    PopBacksReverse(PushBackAll(e, xs), xs);
  }

  /**
   * The second test, for any values: push_front each of xs, then pop_front
   * as many times, gives xs backwards, and one more pop_front finds the list
   * empty.
   */
  lemma PushFrontThenPopFront<T>(xs: seq<T>)
    ensures var outs := PopFronts(PushFrontAll(New<T>(), xs), |xs| + 1);
      && (forall i :: 0 <= i < |xs| ==> outs[i] == Some(xs[|xs| - 1 - i]))
      && outs[|xs|] == None
  {
    var l := PushFrontAll(New<T>(), xs);
    assert |Contents(l)| == |xs| && l.length == |xs|;
  }
}

=== FILE: exchange.dfy ===
/**
 * The sender and receiver loops run against each other over a channel
 * that may damage payloads in flight. Each round the sender writes the
 * segment at its cursor, the channel delivers its payload intact or with one
 * byte flipped, the receiver takes one step and replies, and the sender
 * steps on that reply. Headers travel unharmed: the checksum covers the
 * payload only.
 */
module StopAndWait {

  import opened Bytes
  import opened MessageHeader
  import opened Sender
  import opened Receiver

  /** What the channel does to one payload: nothing, or XOR one byte with a mask. */
  datatype Delivery = Intact | Flip(at: nat, mask: byte)

  /** The payload with byte i XORed with m. */
  function FlipByte(p: seq<byte>, i: nat, m: byte): (q: seq<byte>)
    requires i < |p|
  {
    p[i := p[i] ^ m]
  }

  function Deliver(p: seq<byte>, d: Delivery): (q: seq<byte>)
    ensures |q| == |p|
    ensures d.Intact? ==> q == p
    ensures q != p ==> d.Flip? && d.at < |p| && d.mask != 0 && q == FlipByte(p, d.at, d.mask)
  {
    if d.Flip? && d.at < |p| then FlipByte(p, d.at, d.mask) else p
  }

  /** The checksum tells every single-byte error from the original payload. */
  ghost predicate CatchesByteErrors(cs: Checksum)
  {
    forall p: seq<byte>, i: nat, m: byte | i < |p| && m != 0 :: cs(FlipByte(p, i, m)) != cs(p)
  }

  /** Where the two ends of an exchange stand: the sender's cursor, the receiver's accumulator, whether it returned. */
  datatype Ends = Ends(cursor: nat, data: seq<byte>, finished: bool)

  /** Rounds of the exchange, one per channel decision, until the sender's loop exits. */
  function Run(msg: seq<byte>, cs: Checksum, l: Ends, channel: seq<Delivery>): (r: Ends)
    requires l.cursor <= |msg| <= MAX_SLICE_LEN
    ensures l.cursor <= r.cursor <= |msg|
    decreases |channel|
  {
    if l.cursor == |msg| || |channel| == 0 then l
    else
      var f := SegmentAt(msg, cs, l.cursor);
      var arrived := Frame(f.header, Deliver(f.payload, channel[0]));
      var step := ReceiveStep(cs, l.data, arrived);
      Run(msg, cs, Ends(Advance(msg, l.cursor, step.reply), step.data, step.stop), channel[1..])
  }

  /** The receiver holds exactly the bytes the sender counts as delivered, and returns exactly at the end. */
  predicate Synced(msg: seq<byte>, l: Ends)
  {
    l.cursor <= |msg| && l.data == msg[..l.cursor] && (l.finished <==> l.cursor == |msg|)
  }

  /** One round keeps the two ends in step when the checksum catches the damage. */
  lemma RoundKeepsSynced(msg: seq<byte>, cs: Checksum, l: Ends, d: Delivery)
    requires CatchesByteErrors(cs)
    requires 0 < |msg| <= MAX_SLICE_LEN && Synced(msg, l) && l.cursor < |msg|
    ensures var f := SegmentAt(msg, cs, l.cursor);
      var step := ReceiveStep(cs, l.data, Frame(f.header, Deliver(f.payload, d)));
      Synced(msg, Ends(Advance(msg, l.cursor, step.reply), step.data, step.stop))
  {
    var f := SegmentAt(msg, cs, l.cursor);
    var p := f.payload;
    var q := Deliver(p, d);
    var arrived := Frame(f.header, q);
    var step := ReceiveStep(cs, l.data, arrived);
    var next := l.cursor + f.header.length;
    if q == p {
      assert Accepts(cs, arrived);
      assert msg[..next] == msg[..l.cursor] + p;
      assert Advance(msg, l.cursor, step.reply) == next;
      assert EndsMessage(f.header) <==> next == |msg|;
    } else {
      assert cs(FlipByte(p, d.at, d.mask)) != cs(p);
      assert !Accepts(cs, arrived);
      assert Advance(msg, l.cursor, step.reply) == l.cursor;
    }
  }

  /**
   * With a checksum that catches single-byte errors, the receiver's bytes
   * are always the prefix of the message the sender has moved past, and the
   * receiver has returned exactly when the sender's loop has exited.
   */
  lemma {:induction false} RunKeepsSynced(msg: seq<byte>, cs: Checksum, l: Ends, channel: seq<Delivery>)
    requires CatchesByteErrors(cs)
    requires 0 < |msg| <= MAX_SLICE_LEN && Synced(msg, l)
    ensures Synced(msg, Run(msg, cs, l, channel))
    decreases |channel|
  {
    if l.cursor < |msg| && |channel| > 0 {
      var f := SegmentAt(msg, cs, l.cursor);
      var step := ReceiveStep(cs, l.data, Frame(f.header, Deliver(f.payload, channel[0])));
      RoundKeepsSynced(msg, cs, l, channel[0]);
      RunKeepsSynced(msg, cs, Ends(Advance(msg, l.cursor, step.reply), step.data, step.stop), channel[1..]);
    }
  }

  function CountIntact(channel: seq<Delivery>): nat
  {
    if |channel| == 0 then 0 else (if channel[0].Intact? then 1 else 0) + CountIntact(channel[1..])
  }

  /**
   * Whatever the checksum, a channel that delivers at least as many payloads
   * intact as there are segments left lets the sender's loop exit.
   */
  lemma {:induction false} RunCompletes(msg: seq<byte>, cs: Checksum, l: Ends, channel: seq<Delivery>)
    requires l.cursor <= |msg| <= MAX_SLICE_LEN
    requires CountIntact(channel) >= |SegmentsFrom(msg, cs, l.cursor)|
    ensures Run(msg, cs, l, channel).cursor == |msg|
    decreases |channel|
  {
    if l.cursor < |msg| {
      var f := SegmentAt(msg, cs, l.cursor);
      assert |SegmentsFrom(msg, cs, l.cursor)| == 1 + |SegmentsFrom(msg, cs, End(f))|;
      var arrived := Frame(f.header, Deliver(f.payload, channel[0]));
      var step := ReceiveStep(cs, l.data, arrived);
      var next := Advance(msg, l.cursor, step.reply);
      if channel[0].Intact? {
        assert Accepts(cs, arrived);
        assert next == End(f);
      } else {
        assert next == l.cursor || next == End(f);
      }
      RunCompletes(msg, cs, Ends(next, step.data, step.stop), channel[1..]);
    }
  }

  /** Sum of the bytes modulo 2^32: a checksum that does catch single-byte errors. */
  function ByteSum(p: seq<byte>): u32
  {
    Sum(p) % 0x1_0000_0000
  }

  function Sum(p: seq<byte>): nat
  {
    if |p| == 0 then 0 else p[0] as nat + Sum(p[1..])
  }

  lemma {:induction false} SumUpdate(p: seq<byte>, i: nat, v: byte)
    requires i < |p|
    ensures Sum(p[i := v]) == Sum(p) - p[i] as nat + v as nat
  {
    if i > 0 {
      assert p[i := v][1..] == p[1..][i - 1 := v];
      SumUpdate(p[1..], i - 1, v);
    } else {
      assert p[i := v][1..] == p[1..];
    }
  }

  /** The requirement above can be met: the byte-sum checksum catches every single-byte error. */
  lemma ByteSumCatchesByteErrors()
    ensures CatchesByteErrors(ByteSum)
  {
    forall p: seq<byte>, i: nat, m: byte | i < |p| && m != 0
      ensures ByteSum(FlipByte(p, i, m)) != ByteSum(p)
    {
      ByteSumFlip(p, i, m);
    }
  }

  /** Flipping bits of one byte changes that byte, and so the sum. */
  lemma ByteSumFlip(p: seq<byte>, i: nat, m: byte)
    requires i < |p| && m != 0
    ensures ByteSum(FlipByte(p, i, m)) != ByteSum(p)
  {
    XorChanges(p[i], m);
    ByteSumUpdate(p, i, p[i] ^ m);
  }

  lemma XorChanges(b: byte, m: byte)
    requires m != 0
    ensures b ^ m != b
  {
  }

  /** Replacing one byte by a different one moves the sum by less than 256, and not by zero. */
  lemma ByteSumUpdate(p: seq<byte>, i: nat, v: byte)
    requires i < |p| && v != p[i]
    ensures ByteSum(p[i := v]) != ByteSum(p)
  {
    ByteValuesDiffer(v, p[i]);
    SumUpdate(p, i, v);
    var x, y := Sum(p[i := v]), Sum(p);
    NearSumsDiffer(x, y, v as int - p[i] as int);
    assert ByteSum(p[i := v]) == x % 0x1_0000_0000;
    assert ByteSum(p) == y % 0x1_0000_0000;
  }

  /** Two sums that differ by less than 256, but not by zero, differ modulo 2^32. */
  lemma NearSumsDiffer(x: nat, y: nat, d: int)
    requires x == y + d && d != 0 && -256 < d < 256
    ensures x % 0x1_0000_0000 != y % 0x1_0000_0000
  {
  }

  /**
   * The shipped checksum catches nothing: one flipped byte in a one-byte
   * message is accepted, acknowledged, and returned as the message.
   */
  lemma DefaultChecksumLetsCorruptionThrough()
    ensures !CatchesByteErrors(DefaultChecksum)
    ensures var msg: seq<byte> := [7];
      var r := Run(msg, DefaultChecksum, Ends(0, [], false), [Flip(0, 1)]);
      r.finished && r.cursor == |msg| && r.data == [6] && r.data != msg
  {
    var p: seq<byte> := [7];
    var cs: Checksum := DefaultChecksum;
    assert cs(FlipByte(p, 0, 1)) == cs(p);
    var f := SegmentAt(p, DefaultChecksum, 0);
    assert f.payload == [7];
    assert Deliver(f.payload, Flip(0, 1)) == [6];
  }
}

=== FILE: header.dfy ===
/**
 * The segment header of src/net/message.rs: a packed record of version,
 * flag byte, reserved word, three usize fields and a u32 checksum, its flag
 * bits, and its byte view. The source reinterprets the packed struct in
 * place; here that view is an explicit fixed-width little-endian codec, so
 * that the record layout and its round trip can be stated.
 */
module MessageHeader {

  import opened Bytes
  import opened Wrappers
  import opened Seqs

  datatype Header = Header(
    version: byte,
    flag: byte,
    reserved: u16,
    begin: usize,
    length: usize,
    wholeLength: usize,
    check: u32)

  /** One segment on the wire: its header record followed by its payload. */
  datatype Frame = Frame(header: Header, payload: seq<byte>)

  /** Flag bits: bit 0 response, bit 1 sliced, bit 4 receiver confirms the check. */
  const RESPONSE: byte := 0x01
  const SLICED: byte := 0x02
  const CORRECT: byte := 0x10

  /** Byte offsets of the fields in the packed record. */
  const RESERVED_AT: nat := 2
  const BEGIN_AT: nat := 4
  const LENGTH_AT: nat := BEGIN_AT + WORD_BYTES
  const WHOLE_AT: nat := LENGTH_AT + WORD_BYTES
  const CHECK_AT: nat := WHOLE_AT + WORD_BYTES
  const HEADER_SIZE: nat := CHECK_AT + 4

  /** Bit k of a byte, as an independent reading of the flag byte. */
  predicate Bit(b: byte, k: nat)
    requires k < 8
  {
    (b >> k) & 1 == 1
  }

  /** The header every scratch header is reset to: version 1, everything else 0. */
  function Default(): Header
  {
    Header(1, 0, 0, 0, 0, 0, 0)
  }

  /** Data segment vs. acknowledgement: tests the mask against 1, which works for bit 0. */
  predicate IsResponse(h: Header)
    ensures IsResponse(h) <==> Bit(h.flag, 0)
  {
    h.flag & RESPONSE == 1
  }

  /**
   * The sliced test compares `flag & 0b10` with 1. The masked value is 0 or
   * 2, so the test is false for every header, even one with bit 1 set.
   */
  predicate IsSliced(h: Header)
    ensures !IsSliced(h)
  {
    h.flag & SLICED == 1
  }

  /** The sliced test as evidently meant: bit 1 of the flag byte is set. */
  predicate HasSlicedBit(h: Header)
    ensures HasSlicedBit(h) <==> Bit(h.flag, 1)
  {
    h.flag & SLICED != 0
  }

  /** A header the sender marks as sliced: the corrected test sees the bit, the shipped one does not. */
  lemma SlicedTestMissesSetBit(h: Header)
    ensures HasSlicedBit(SetSliced(h)) && !IsSliced(SetSliced(h))
  {
  }

  predicate IsCorrect(h: Header)
    ensures IsCorrect(h) <==> Bit(h.flag, 4)
  {
    h.flag & CORRECT != 0
  }

  function SetResponse(h: Header): (r: Header)
    ensures r == h.(flag := r.flag)
    ensures Bit(r.flag, 0)
    ensures forall k :: 0 < k < 8 ==> Bit(r.flag, k) == Bit(h.flag, k)
  {
    h.(flag := h.flag | RESPONSE)
  }

  function SetSliced(h: Header): (r: Header)
    ensures r == h.(flag := r.flag)
    ensures Bit(r.flag, 1)
    ensures forall k :: 0 <= k < 8 && k != 1 ==> Bit(r.flag, k) == Bit(h.flag, k)
  {
    h.(flag := h.flag | SLICED)
  }

  function SetCorrect(h: Header): (r: Header)
    ensures r == h.(flag := r.flag)
    ensures Bit(r.flag, 4)
    ensures forall k :: 0 <= k < 8 && k != 4 ==> Bit(r.flag, k) == Bit(h.flag, k)
  {
    h.(flag := h.flag | CORRECT)
  }

  /** Setting a flag twice is setting it once. */
  lemma SettersIdempotent(h: Header)
    ensures SetResponse(SetResponse(h)) == SetResponse(h)
    ensures SetSliced(SetSliced(h)) == SetSliced(h)
    ensures SetCorrect(SetCorrect(h)) == SetCorrect(h)
  {
  }

  /** The byte view of a header: the fields in declaration order at fixed widths. */
  function Encode(h: Header): (bs: seq<byte>)
    ensures |bs| == HEADER_SIZE
  {
    Pow256Widths();
    [h.version, h.flag]
      + ToLE(h.reserved, 2)
      + ToLE(h.begin, WORD_BYTES)
      + ToLE(h.length, WORD_BYTES)
      + ToLE(h.wholeLength, WORD_BYTES)
      + ToLE(h.check, 4)
  }

  /** Reading a header record back from exactly HEADER_SIZE bytes; every byte string is some header. */
  function Decode(bs: seq<byte>): (h: Header)
    requires |bs| == HEADER_SIZE
  {
    Pow256Widths();
    Header(
      bs[0],
      bs[1],
      FromLE(bs[RESERVED_AT..BEGIN_AT]),
      FromLE(bs[BEGIN_AT..LENGTH_AT]),
      FromLE(bs[LENGTH_AT..WHOLE_AT]),
      FromLE(bs[WHOLE_AT..CHECK_AT]),
      FromLE(bs[CHECK_AT..HEADER_SIZE]))
  }

  /** Decoding an encoded header reproduces every field, reserved included. */
  lemma DecodeEncode(h: Header)
    ensures Decode(Encode(h)) == h
  {
    Pow256Widths();
    var bs := Encode(h);
    assert bs[RESERVED_AT..BEGIN_AT] == ToLE(h.reserved, 2);
    assert bs[BEGIN_AT..LENGTH_AT] == ToLE(h.begin, WORD_BYTES);
    assert bs[LENGTH_AT..WHOLE_AT] == ToLE(h.length, WORD_BYTES);
    assert bs[WHOLE_AT..CHECK_AT] == ToLE(h.wholeLength, WORD_BYTES);
    assert bs[CHECK_AT..HEADER_SIZE] == ToLE(h.check, 4);
    FromToLE(h.reserved, 2);
    FromToLE(h.begin, WORD_BYTES);
    FromToLE(h.length, WORD_BYTES);
    FromToLE(h.wholeLength, WORD_BYTES);
    FromToLE(h.check, 4);
  }

  /** Encoding a decoded record reproduces its bytes: the view is a bijection. */
  lemma EncodeDecode(bs: seq<byte>)
    requires |bs| == HEADER_SIZE
    ensures Encode(Decode(bs)) == bs
  {
    ToFromLE(bs[RESERVED_AT..BEGIN_AT]);
    ToFromLE(bs[BEGIN_AT..LENGTH_AT]);
    ToFromLE(bs[LENGTH_AT..WHOLE_AT]);
    ToFromLE(bs[WHOLE_AT..CHECK_AT]);
    ToFromLE(bs[CHECK_AT..HEADER_SIZE]);
    assert bs == [bs[0], bs[1]]
      + bs[RESERVED_AT..BEGIN_AT]
      + bs[BEGIN_AT..LENGTH_AT]
      + bs[LENGTH_AT..WHOLE_AT]
      + bs[WHOLE_AT..CHECK_AT]
      + bs[CHECK_AT..HEADER_SIZE];
  }

  /** The default header is the byte 1 followed by zero bytes. */
  lemma DefaultEncoding()
    ensures Encode(Default()) == [1 as byte] + seq(HEADER_SIZE - 1, _ => 0 as byte)
  {
    ToLEZero(2);
    ToLEZero(WORD_BYTES);
    ToLEZero(4);
  }

  /** The bytes one segment occupies on the stream. */
  function FrameBytes(f: Frame): seq<byte>
  {
    Encode(f.header) + f.payload
  }

  /**
   * The receiver's two exact reads: a header record, then as many payload
   * bytes as that header declares. None when the stream ends first.
   */
  function ReadFrame(stream: seq<byte>): (r: Option<(Frame, seq<byte>)>)
    ensures r.Some? ==> FrameBytes(r.value.0) + r.value.1 == stream
    ensures r.Some? ==> |r.value.0.payload| == r.value.0.header.length
    ensures r.None? <==> |stream| < HEADER_SIZE
                         || |stream| < HEADER_SIZE + Decode(stream[..HEADER_SIZE]).length
  {
    if |stream| < HEADER_SIZE then None
    else
      var h := Decode(stream[..HEADER_SIZE]);
      if |stream| < HEADER_SIZE + h.length then None
      else
        EncodeDecode(stream[..HEADER_SIZE]);
        var payload := stream[HEADER_SIZE..HEADER_SIZE + h.length];
        assert stream == stream[..HEADER_SIZE] + payload + stream[HEADER_SIZE + h.length..];
        Some((Frame(h, payload), stream[HEADER_SIZE + h.length..]))
  }

  /** A frame whose payload has its declared length is read back whole, and the rest is left. */
  lemma ReadFrameBytes(f: Frame, rest: seq<byte>)
    requires |f.payload| == f.header.length
    ensures ReadFrame(FrameBytes(f) + rest) == Some((f, rest))
  {
    var stream := FrameBytes(f) + rest;
    assert stream[..HEADER_SIZE] == Encode(f.header);
    DecodeEncode(f.header);
    assert stream[HEADER_SIZE..HEADER_SIZE + f.header.length] == f.payload;
    assert stream[HEADER_SIZE + f.header.length..] == rest;
  }

  /** The bytes of a run of frames written back to back. */
  function Wire(fs: seq<Frame>): seq<byte>
  {
    if |fs| == 0 then [] else FrameBytes(fs[0]) + Wire(fs[1..])
  }

  /** Reads frames off a stream until the bytes left cannot hold a whole frame. */
  function ReadFrames(stream: seq<byte>): seq<Frame>
    decreases |stream|
  {
    var r := ReadFrame(stream);
    if r.None? then [] else [r.value.0] + ReadFrames(r.value.1)
  }

  /** Reading a stream that starts with a well-formed frame yields that frame first. */
  lemma ReadFramesCons(f: Frame, rest: seq<byte>)
    requires |f.payload| == f.header.length
    ensures ReadFrames(FrameBytes(f) + rest) == [f] + ReadFrames(rest)
  {
    ReadFrameBytes(f, rest);
  }

  lemma WireCons(fs: seq<Frame>, tail: seq<byte>)
    requires |fs| > 0
    ensures Wire(fs) + tail == FrameBytes(fs[0]) + (Wire(fs[1..]) + tail)
  {
    ConcatAssoc(FrameBytes(fs[0]), Wire(fs[1..]), tail);
  }

  /**
   * Frames written back to back, each with a payload of its declared
   * length, are read back one for one, and reading then carries on with
   * whatever followed them.
   */
  lemma {:induction false} ReadWire(fs: seq<Frame>, tail: seq<byte>)
    requires forall i :: 0 <= i < |fs| ==> |fs[i].payload| == fs[i].header.length
    ensures ReadFrames(Wire(fs) + tail) == fs + ReadFrames(tail)
  {
    if |fs| > 0 {
      assert forall i :: 0 <= i < |fs[1..]| ==> |fs[1..][i].payload| == fs[1..][i].header.length;
      ReadWire(fs[1..], tail);
      WireCons(fs, tail);
      ReadFramesCons(fs[0], Wire(fs[1..]) + tail);
      ConcatAssoc([fs[0]], fs[1..], ReadFrames(tail));
      assert [fs[0]] + fs[1..] == fs;
    } else {
      assert Wire(fs) + tail == tail;
    }
  }
}

=== FILE: hex.dfy ===
/**
 * The lowercase hexadecimal rendering of src/crypto/hash.rs: each byte
 * becomes two ASCII characters, high nibble first (Base16 of section 8 of
 * RFC 4648, with the lowercase alphabet), and the SHA-256 string form built
 * on it. The digest itself is a parameter.
 */
module Hex {

  import opened Bytes
  import opened Wrappers

  /** The alphabet, independent of the arithmetic that produces it. */
  const HEX_DIGITS: string := "0123456789abcdef"

  /**
   * u8_to_ascii_char: n + 48 below ten, n + 87 otherwise, in u8 arithmetic
   * (which wraps in a release build). Right only for n below 16.
   */
  function NibbleToAscii(n: byte): (c: byte)
    ensures n < 16 ==> c as char == HEX_DIGITS[n as int]
  {
    if n < 0xA then n + 48 else n + 87
  }

  /**
   * u8_to_ascii_char in a debug build, where a u8 addition that overflows
   * panics (None here): only `n + 87` can overflow, for n of 0xA9 and up.
   * Where it returns, it agrees with the release build.
   */
  function NibbleToAsciiChecked(n: byte): (r: Option<byte>)
    ensures r.None? <==> n >= 0xA9
    ensures r.Some? ==> r.value == NibbleToAscii(n)
    ensures n < 16 ==> r.Some? && r.value as char == HEX_DIGITS[n as int]
  {
    if n < 0xA then Some(n + 48)
    else if n < 0xA9 then Some(n + 87)
    else None
  }

  /**
   * With high bits set the result is no longer the digit: 0x10 gives 'g' in
   * both builds; 0xD9 comes out as '0' in a release build, where the
   * addition wraps, and panics in a debug build.
   */
  lemma NibbleToAsciiWrongAbove15()
    ensures NibbleToAscii(0x10) as char == 'g' && NibbleToAsciiChecked(0x10) == Some(NibbleToAscii(0x10))
    ensures NibbleToAscii(0xD9) as char == '0' && NibbleToAsciiChecked(0xD9).None?
  {
  }

  /** The two nibbles of a byte, as the source extracts them: mask, then shift. */
  lemma NibbleSplit(b: byte)
    ensures ((b & 0xf0) >> 4) as int == b as int / 16
    ensures (b & 0x0f) as int == b as int % 16
  {
  }

  /** The two characters bytes_to_string pushes for one byte: high nibble, then low. */
  function HexPair(b: byte): (p: seq<byte>)
    ensures |p| == 2 && p[0] < 0x80 && p[1] < 0x80
    ensures p[0] as char == HEX_DIGITS[b as int / 16]
    ensures p[1] as char == HEX_DIGITS[b as int % 16]
  {
    NibbleSplit(b);
    [NibbleToAscii((b & 0xf0) >> 4), NibbleToAscii(b & 0x0f)]
  }

  /** The byte buffer bytes_to_string fills, one pair per input byte, in order. */
  function HexBytes(bs: seq<byte>): (buf: seq<byte>)
    ensures |buf| == 2 * |bs|
    ensures forall i :: 0 <= i < |bs| ==> buf[2 * i] == HexPair(bs[i])[0] && buf[2 * i + 1] == HexPair(bs[i])[1]
  {
    if |bs| == 0 then []
    else
      var rest := HexBytes(bs[1..]);
      var buf := HexPair(bs[0]) + rest;
      assert forall i :: 1 <= i < |bs| ==> bs[i] == bs[1..][i - 1];
      assert forall k :: 2 <= k < |buf| ==> buf[k] == rest[k - 2];
      buf
  }

  /**
   * Bytes read as characters, one for one. This and FromAscii stand in for
   * the standard library's conversion, so their contracts are their definition.
   */
  function AsChars(buf: seq<byte>): (s: string)
    ensures |s| == |buf| && forall i :: 0 <= i < |buf| ==> s[i] == buf[i] as char
  {
    seq(|buf|, i requires 0 <= i < |buf| => buf[i] as char)
  }

  /** String::from_utf8 on ASCII input: Ok exactly when every byte is below 0x80. */
  function FromAscii(buf: seq<byte>): (r: Option<string>)
    ensures r.Some? <==> forall i :: 0 <= i < |buf| ==> buf[i] < 0x80
    ensures r.Some? ==> r.value == AsChars(buf)
  {
    if forall i :: 0 <= i < |buf| ==> buf[i] < 0x80 then Some(AsChars(buf)) else None
  }

  /**
   * bytes_to_string: always Ok, two lowercase hex digits per byte, the
   * high nibble's digit first.
   */
  function BytesToString(bs: seq<byte>): (r: Option<string>)
    ensures r.Some?
    ensures |r.value| == 2 * |bs|
    ensures forall i :: 0 <= i < |bs| ==>
              r.value[2 * i] == HEX_DIGITS[bs[i] as int / 16]
              && r.value[2 * i + 1] == HEX_DIGITS[bs[i] as int % 16]
    ensures forall j :: 0 <= j < |r.value| ==> r.value[j] in HEX_DIGITS
  {
    var buf := HexBytes(bs);
    forall j | 0 <= j < |buf|
      ensures buf[j] < 0x80 && buf[j] as char in HEX_DIGITS
    {
      var i := j / 2;
      if j == 2 * i {
        assert buf[j] == HexPair(bs[i])[0];
      } else {
        assert j == 2 * i + 1;
        assert buf[j] == HexPair(bs[i])[1];
      }
    }
    FromAscii(buf)
  }

  /** The value of a lowercase hex digit. */
  function DigitValue(c: char): (v: Option<nat>)
    ensures v.Some? <==> c in HEX_DIGITS
    ensures v.Some? ==> v.value < 16 && HEX_DIGITS[v.value] == c
  {
    if '0' <= c <= '9' then Some(c as int - '0' as int)
    else if 'a' <= c <= 'f' then Some(c as int - 'a' as int + 10)
    else None
  }

  /** Each digit reads back as its own position in the alphabet. */
  lemma DigitValueOfDigit(k: nat)
    requires k < 16
    ensures DigitValue(HEX_DIGITS[k]) == Some(k)
  {
    if k < 10 {
      assert HEX_DIGITS[k] as int == '0' as int + k;
    } else {
      assert HEX_DIGITS[k] as int == 'a' as int + k - 10;
    }
  }

  /** Reading a lowercase hex string back into bytes: the inverse of the encoder. */
  function HexDecode(s: string): Option<seq<byte>>
    decreases |s|
  {
    if |s| == 0 then Some([])
    else if |s| == 1 then None
    else
      var high := DigitValue(s[0]);
      var low := DigitValue(s[1]);
      var rest := HexDecode(s[2..]);
      if high.Some? && low.Some? && rest.Some? then Some([DigitsByte(high.value, low.value)] + rest.value)
      else None
  }

  /** The byte a high and a low digit value spell. */
  function DigitsByte(high: nat, low: nat): (b: byte)
    requires high < 16 && low < 16
    ensures b as int == high * 16 + low
  {
    ByteOfValue(high * 16 + low);
    ByteOf(high * 16 + low)
  }

  /** A byte is spelled by its own two nibbles. */
  lemma DigitsByteOfNibbles(b: byte)
    ensures DigitsByte(b as int / 16, b as int % 16) == b
  {
    assert (b as int / 16) * 16 + b as int % 16 == b as int;
    ByteOfByte(b);
  }

  /** HexDecode on a string that starts with two digits. */
  lemma HexDecodeCons(s: string, h: nat, l: nat, rest: seq<byte>)
    requires |s| >= 2 && DigitValue(s[0]) == Some(h) && DigitValue(s[1]) == Some(l)
    requires HexDecode(s[2..]) == Some(rest)
    ensures h < 16 && l < 16 && HexDecode(s) == Some([DigitsByte(h, l)] + rest)
  {
  }

  /** The string of a non-empty input: the first byte's two digits, then the rest's string. */
  lemma HexStringCons(bs: seq<byte>)
    requires |bs| > 0
    ensures var s := BytesToString(bs).value;
      && s[0] == HEX_DIGITS[bs[0] as int / 16]
      && s[1] == HEX_DIGITS[bs[0] as int % 16]
      && s[2..] == BytesToString(bs[1..]).value
  {
    var pair := HexPair(bs[0]);
    var rest := HexBytes(bs[1..]);
    assert HexBytes(bs) == pair + rest;
    assert BytesToString(bs).value == AsChars(pair + rest);
    assert BytesToString(bs[1..]).value == AsChars(rest);
    AsCharsAppend(pair, rest);
  }

  /** Reading bytes as characters commutes with concatenation. */
  lemma AsCharsAppend(a: seq<byte>, b: seq<byte>)
    ensures AsChars(a + b) == AsChars(a) + AsChars(b)
  {
    forall i | 0 <= i < |a + b|
      ensures AsChars(a + b)[i] == (AsChars(a) + AsChars(b))[i]
    {
      if i >= |a| {
        assert (a + b)[i] == b[i - |a|];
      }
    }
  }

  /** The encoding is reversible: decoding the string gives the bytes back. */
  lemma {:induction false} HexRoundTrip(bs: seq<byte>)
    ensures HexDecode(BytesToString(bs).value) == Some(bs)
  {
    if |bs| > 0 {
      var s := BytesToString(bs).value;
      var h := bs[0] as int / 16;
      var l := bs[0] as int % 16;
      HexStringCons(bs);
      HexRoundTrip(bs[1..]);
      DigitValueOfDigit(h);
      DigitValueOfDigit(l);
      DigitsByteOfNibbles(bs[0]);
      HexDecodeCons(s, h, l, bs[1..]);
      assert [bs[0]] + bs[1..] == bs;
      assert HexDecode(s) == Some(bs);
    } else {
      assert |BytesToString(bs).value| == 0;
    }
  }

  /** Distinct byte strings render as distinct hex strings. */
  lemma HexInjective(a: seq<byte>, b: seq<byte>)
    requires BytesToString(a) == BytesToString(b)
    ensures a == b
  {
    HexRoundTrip(a);
    HexRoundTrip(b);
  }

  /** The cases the source's test prints: 0x0A, 0x2 and 0x0f. */
  lemma NibbleExamples()
    ensures NibbleToAscii(0x0A) as char == 'a'
    ensures NibbleToAscii(0x2) as char == '2'
    ensures NibbleToAscii(0x0f) as char == 'f'
  {
  }

  /** The 32-byte buffer to_sha256 returns. */
  type Digest = s: seq<byte> | |s| == 32 witness seq(32, _ => 0)

  /**
   * to_sha256_str: the digest rendered in hex; the unwrap never fails and
   * the string is always 64 hex digits. The hash function is a parameter.
   */
  function ToSha256Str(data: seq<byte>, sha256: seq<byte> -> Digest): (s: string)
    ensures |s| == 64
    ensures forall j :: 0 <= j < |s| ==> s[j] in HEX_DIGITS
    ensures HexDecode(s) == Some(sha256(data))
  {
    HexRoundTrip(sha256(data));
    BytesToString(sha256(data)).value
  }
}

=== FILE: receiver.dfy ===
/**
 * The receiving half of the stop-and-wait protocol (the loop shared by
 * MessageCenter::receive_bytes and receive_bytes_buf): each arrival is a
 * header and the payload read after it; the receiver checks the payload,
 * appends it when the check matches, answers with a reply header, and stops
 * after accepting the segment that ends the message.
 */
module Receiver {

  import opened Bytes
  import opened MessageHeader
  import opened Sender
  import opened Seqs

  /** The payload passes the integrity check the header carries. */
  predicate Accepts(cs: Checksum, f: Frame)
  {
    cs(f.payload) == f.header.check
  }

  /**
   * The stop test `begin + length == whole_length`. The sum is usize
   * arithmetic; the model takes the release-build reading, which wraps.
   */
  predicate EndsMessage(h: Header)
  {
    (h.begin + h.length) % 0x1_0000_0000_0000_0000 == h.wholeLength
  }

  /** An accepted segment that ends the message stops the loop. */
  predicate Completes(cs: Checksum, f: Frame)
  {
    Accepts(cs, f) && EndsMessage(f.header)
  }

  /**
   * The reply to one segment: a fresh default header with the response bit,
   * the segment's begin and length, and the correct bit exactly when the
   * check matched.
   */
  function Reply(h: Header, accepted: bool): (r: Header)
    ensures Bit(r.flag, 0) && (Bit(r.flag, 4) <==> accepted)
    ensures forall k :: 0 < k < 8 && k != 4 ==> !Bit(r.flag, k)
    ensures r == Default().(flag := r.flag, begin := h.begin, length := h.length)
  {
    var base := SetResponse(Default()).(begin := h.begin, length := h.length);
    if accepted then SetCorrect(base) else base
  }

  /** One turn of the loop: the accumulator after the arrival, the reply to it, and whether the loop stops. */
  datatype Step = Step(data: seq<byte>, reply: Header, stop: bool)

  function ReceiveStep(cs: Checksum, data: seq<byte>, f: Frame): Step
  {
    var ok := Accepts(cs, f);
    Step(if ok then data + f.payload else data, Reply(f.header, ok), ok && EndsMessage(f.header))
  }

  /** The payloads of the arrivals that pass the check, in order: the reference for the accumulator. */
  function AcceptedPayloads(cs: Checksum, fs: seq<Frame>): seq<byte>
  {
    if |fs| == 0 then []
    else (if Accepts(cs, fs[0]) then fs[0].payload else []) + AcceptedPayloads(cs, fs[1..])
  }

  /** The reply written for each arrival, in order. */
  function Replies(cs: Checksum, fs: seq<Frame>): (rs: seq<Header>)
    ensures |rs| == |fs|
  {
    if |fs| == 0 then [] else [Reply(fs[0].header, Accepts(cs, fs[0]))] + Replies(cs, fs[1..])
  }

  /** Each arrival is answered by the reply for its own header and check outcome. */
  lemma {:induction false} RepliesAt(cs: Checksum, fs: seq<Frame>, i: nat)
    requires i < |fs|
    ensures Replies(cs, fs)[i] == Reply(fs[i].header, Accepts(cs, fs[i]))
  {
    if i > 0 {
      RepliesAt(cs, fs[1..], i - 1);
    }
  }

  /**
   * What one receive call did: the accumulated bytes, the replies written,
   * how many arrivals it consumed, and whether the loop ended; when it did
   * not, the call is still waiting for the next header.
   */
  datatype Reception = Reception(data: seq<byte>, replies: seq<Header>, consumed: nat, finished: bool)

  /**
   * The receive loop over the arrivals, appending to `data`. It consumes
   * arrivals up to and including the first one that completes the message,
   * answers each with its reply, and accumulates exactly the accepted
   * payloads.
   */
  function ReceiveFrom(cs: Checksum, arrivals: seq<Frame>, data: seq<byte>): (r: Reception)
    ensures r.consumed <= |arrivals| && |r.replies| == r.consumed
    ensures r.data == data + AcceptedPayloads(cs, arrivals[..r.consumed])
    ensures r.replies == Replies(cs, arrivals[..r.consumed])
    ensures forall i :: 0 <= i < r.consumed - 1 ==> !Completes(cs, arrivals[i])
    ensures r.finished <==> r.consumed > 0 && Completes(cs, arrivals[r.consumed - 1])
    ensures !r.finished ==> r.consumed == |arrivals|
    decreases |arrivals|
  {
    if |arrivals| == 0 then Reception(data, [], 0, false)
    else
      var f := arrivals[0];
      var step := ReceiveStep(cs, data, f);
      var own := if Accepts(cs, f) then f.payload else [];
      if step.stop then
        TakenCons(cs, arrivals, 1);
        assert arrivals[1..][..0] == [];
        Reception(step.data, [step.reply], 1, true)
      else
        var rest := ReceiveFrom(cs, arrivals[1..], step.data);
        TakenCons(cs, arrivals, rest.consumed + 1);
        var later := AcceptedPayloads(cs, arrivals[1..][..rest.consumed]);
        assert step.data == data + own;
        ConcatAssoc(data, own, later);
        assert rest.data == data + (own + later);
        Reception(rest.data, [step.reply] + rest.replies, rest.consumed + 1, rest.finished)
  }

  /** The first k arrivals: the first one's contribution, then the rest's. */
  lemma TakenCons(cs: Checksum, arrivals: seq<Frame>, k: nat)
    requires 0 < k <= |arrivals|
    ensures var f := arrivals[0];
      && AcceptedPayloads(cs, arrivals[..k])
         == (if Accepts(cs, f) then f.payload else []) + AcceptedPayloads(cs, arrivals[1..][..k - 1])
      && Replies(cs, arrivals[..k]) == [Reply(f.header, Accepts(cs, f))] + Replies(cs, arrivals[1..][..k - 1])
  {
    assert arrivals[..k][1..] == arrivals[1..][..k - 1];
  }

  /** The receive loop proper: the accumulator is cleared before the first read. */
  function Receive(cs: Checksum, arrivals: seq<Frame>): Reception
  {
    ReceiveFrom(cs, arrivals, [])
  }

  /** A receive call returns exactly when some arrival it is fed completes a message. */
  lemma ReceiveReturnsIffCompletes(cs: Checksum, arrivals: seq<Frame>)
    ensures Receive(cs, arrivals).finished <==> exists i :: 0 <= i < |arrivals| && Completes(cs, arrivals[i])
  {
    var r := Receive(cs, arrivals);
    if r.finished {
      assert Completes(cs, arrivals[r.consumed - 1]);
    }
  }

  /** When every arrival passes its check, the accepted payloads are all the payloads. */
  lemma {:induction false} AcceptedAll(cs: Checksum, fs: seq<Frame>)
    requires forall i :: 0 <= i < |fs| ==> Accepts(cs, fs[i])
    ensures AcceptedPayloads(cs, fs) == Payloads(fs)
  {
    if |fs| > 0 {
      assert Accepts(cs, fs[0]);
      AcceptedAll(cs, fs[1..]);
    }
  }

  /**
   * Every segment the sender writes passes its own check, and only the last
   * one ends the message.
   */
  lemma SegmentsStopAtLast(msg: seq<byte>, cs: Checksum)
    requires 0 < |msg| <= MAX_SLICE_LEN
    ensures var fs := Segments(msg, cs);
      && |fs| > 0
      && (forall i :: 0 <= i < |fs| ==> Accepts(cs, fs[i]))
      && (forall i :: 0 <= i < |fs| - 1 ==> !Completes(cs, fs[i]))
      && Completes(cs, fs[|fs| - 1])
  {
    var fs := Segments(msg, cs);
    SegmentsPartition(msg, cs);
    forall i | 0 <= i < |fs|
      ensures Accepts(cs, fs[i])
    {
      var f := SegmentAt(msg, cs, fs[i].header.begin);
      assert fs[i] == f;
    }
    forall i | 0 <= i < |fs| - 1
      ensures !EndsMessage(fs[i].header)
    {
      assert End(fs[i]) == fs[i + 1].header.begin < |msg|;
      assert fs[i].header.wholeLength == |msg|;
      NoWrapBelowSliceLimit(End(fs[i]));
    }
    var last := fs[|fs| - 1];
    assert last == SegmentAt(msg, cs, last.header.begin);
    assert End(last) == |msg| == last.header.wholeLength;
    NoWrapBelowSliceLimit(End(last));
  }

  /** Offsets within a slice never reach the point where usize addition wraps. */
  lemma NoWrapBelowSliceLimit(x: nat)
    requires x <= MAX_SLICE_LEN
    ensures x % 0x1_0000_0000_0000_0000 == x
  {
  }

  /**
   * Fed the sender's segments of a non-empty message, followed by anything,
   * the receiver accepts each, stops right after the last one, answers each
   * with a positive reply, and returns the message.
   */
  lemma ReceiveSegments(msg: seq<byte>, cs: Checksum, later: seq<Frame>)
    requires 0 < |msg| <= MAX_SLICE_LEN
    ensures var fs := Segments(msg, cs);
      var r := Receive(cs, fs + later);
      && r.finished
      && r.consumed == |fs|
      && r.data == msg
      && (forall i :: 0 <= i < |r.replies| ==> Positive(r.replies[i]))
  {
    var fs := Segments(msg, cs);
    var arrivals := fs + later;
    var n := |fs|;
    SegmentsStopAtLast(msg, cs);
    var r := Receive(cs, arrivals);
    assert forall i :: 0 <= i < n ==> arrivals[i] == fs[i];
    assert r.consumed == n;
    assert arrivals[..n] == fs;
    AcceptedAll(cs, fs);
    SegmentsPartition(msg, cs);
    forall i | 0 <= i < |r.replies|
      ensures Positive(r.replies[i])
    {
      RepliesAt(cs, fs, i);
    }
  }
}

=== FILE: sender.dfy ===
/**
 * The sending half of the stop-and-wait protocol (MessageCenter::send_bytes):
 * the segmentation of a message into at most SLICE_SIZE-byte segments, the
 * cursor step taken on each acknowledgement, and the run of the send loop
 * against a sequence of acknowledgement headers.
 */
module Sender {

  import opened Bytes
  import opened MessageHeader

  const SLICE_SIZE: nat := 1024

  /** The integrity function computed over a segment's payload; pluggable. */
  type Checksum = seq<byte> -> u32

  /** The shipped integrity function: the same value for every payload. */
  function DefaultChecksum(data: seq<byte>): u32
  {
    0
  }

  /**
   * The scratch header as prepared before the loop: reset to the default,
   * whole_length set, and the sliced bit set only for messages strictly
   * longer than one slice.
   */
  function BaseHeader(msg: seq<byte>): (h: Header)
    requires |msg| <= MAX_SLICE_LEN
    ensures h == Default().(flag := h.flag, wholeLength := |msg|)
    ensures HasSlicedBit(h) <==> |msg| > SLICE_SIZE
    ensures forall k :: 0 <= k < 8 && k != 1 ==> !Bit(h.flag, k)
  {
    var h := Default().(wholeLength := |msg|);
    if |msg| > SLICE_SIZE then SetSliced(h) else h
  }

  /** The length of the segment starting at the cursor: a full slice, or what is left. */
  function SegmentLength(whole: nat, cursor: nat): (len: nat)
    requires cursor < whole
    ensures 0 < len <= SLICE_SIZE
    ensures cursor + len <= whole
    ensures len < SLICE_SIZE ==> cursor + len == whole
  {
    if cursor + SLICE_SIZE < whole then SLICE_SIZE else whole - cursor
  }

  /**
   * The frame written for the segment at the cursor (header then payload):
   * a data segment, not a reply, that covers the next min(1024, left)
   * bytes of the message and carries the checksum of exactly those bytes.
   */
  function SegmentAt(msg: seq<byte>, cs: Checksum, cursor: nat): (f: Frame)
    requires cursor < |msg| <= MAX_SLICE_LEN
    ensures f.header == BaseHeader(msg).(begin := cursor, length := f.header.length, check := f.header.check)
    ensures f.header.length == SegmentLength(|msg|, cursor)
    ensures f.payload == msg[cursor..cursor + f.header.length]
    ensures f.header.check == cs(f.payload)
    ensures f.header.begin == cursor && f.header.wholeLength == |msg|
    ensures 0 < |f.payload| == f.header.length <= SLICE_SIZE
    ensures End(f) == if |msg| - cursor <= SLICE_SIZE then |msg| else cursor + SLICE_SIZE
    ensures msg == msg[..cursor] + f.payload + msg[End(f)..]
    ensures !Bit(f.header.flag, 0) && !Bit(f.header.flag, 4)
    ensures Bit(f.header.flag, 1) <==> |msg| > SLICE_SIZE
  {
    var len := SegmentLength(|msg|, cursor);
    var data := msg[cursor..cursor + len];
    Frame(BaseHeader(msg).(begin := cursor, length := len, check := cs(data)), data)
  }

  /** End offset of a frame's segment within its message. */
  function End(f: Frame): nat
  {
    f.header.begin + f.header.length
  }

  /** The payloads of a frame sequence, concatenated in order. */
  function Payloads(fs: seq<Frame>): seq<byte>
  {
    if |fs| == 0 then [] else fs[0].payload + Payloads(fs[1..])
  }

  /** The segments that are sent, one each, when every acknowledgement is positive. */
  function SegmentsFrom(msg: seq<byte>, cs: Checksum, cursor: nat): (fs: seq<Frame>)
    requires cursor <= |msg| <= MAX_SLICE_LEN
    decreases |msg| - cursor
  {
    if cursor == |msg| then []
    else
      var f := SegmentAt(msg, cs, cursor);
      [f] + SegmentsFrom(msg, cs, End(f))
  }

  function Segments(msg: seq<byte>, cs: Checksum): seq<Frame>
    requires |msg| <= MAX_SLICE_LEN
  {
    SegmentsFrom(msg, cs, 0)
  }

  /**
   * The segments from a cursor tile the rest of the message: they start at
   * the cursor, each begins where the previous one ends, the last ends at
   * the message length, and each is the frame written at its own offset.
   */
  lemma SegmentsFromShape(msg: seq<byte>, cs: Checksum, cursor: nat)
    requires cursor <= |msg| <= MAX_SLICE_LEN
    ensures var fs := SegmentsFrom(msg, cs, cursor);
      && (|fs| == 0 <==> cursor == |msg|)
      && (|fs| > 0 ==> fs[0].header.begin == cursor && End(fs[|fs| - 1]) == |msg|)
      && (forall i :: 0 < i < |fs| ==> fs[i].header.begin == End(fs[i - 1]))
      && (forall i :: 0 <= i < |fs| ==> cursor <= fs[i].header.begin < |msg| && fs[i] == SegmentAt(msg, cs, fs[i].header.begin))
  {
    SegmentsFromChain(msg, cs, cursor);
    SegmentsFromFrames(msg, cs, cursor);
  }

  /** The segments from a cursor are contiguous, from the cursor to the end of the message. */
  lemma {:induction false} SegmentsFromChain(msg: seq<byte>, cs: Checksum, cursor: nat)
    requires cursor <= |msg| <= MAX_SLICE_LEN
    ensures var fs := SegmentsFrom(msg, cs, cursor);
      && (|fs| == 0 <==> cursor == |msg|)
      && (|fs| > 0 ==> fs[0].header.begin == cursor && End(fs[|fs| - 1]) == |msg|)
      && (forall i :: 0 < i < |fs| ==> fs[i].header.begin == End(fs[i - 1]))
    decreases |msg| - cursor
  {
    var fs := SegmentsFrom(msg, cs, cursor);
    if cursor < |msg| {
      var f := SegmentAt(msg, cs, cursor);
      var next := End(f);
      SegmentsFromChain(msg, cs, next);
      var tail := SegmentsFrom(msg, cs, next);
      assert fs == [f] + tail;
      forall i | 0 < i < |fs|
        ensures fs[i].header.begin == End(fs[i - 1])
      {
        if i > 1 {
          assert fs[i] == tail[i - 1] && fs[i - 1] == tail[i - 2];
        }
      }
    }
  }

  /** Each segment from a cursor lies at or after it and is the frame written at its own offset. */
  lemma {:induction false} SegmentsFromFrames(msg: seq<byte>, cs: Checksum, cursor: nat)
    requires cursor <= |msg| <= MAX_SLICE_LEN
    ensures forall f | f in SegmentsFrom(msg, cs, cursor) :: cursor <= f.header.begin < |msg| && f == SegmentAt(msg, cs, f.header.begin)
    decreases |msg| - cursor
  {
    var fs := SegmentsFrom(msg, cs, cursor);
    if cursor < |msg| {
      var f := SegmentAt(msg, cs, cursor);
      var next := End(f);
      SegmentsFromFrames(msg, cs, next);
      var tail := SegmentsFrom(msg, cs, next);
      assert fs == [f] + tail;
      assert cursor < next;
    }
  }

  /** The payloads of the segments from a cursor concatenate to the rest of the message. */
  lemma {:induction false} SegmentsFromPayloads(msg: seq<byte>, cs: Checksum, cursor: nat)
    requires cursor <= |msg| <= MAX_SLICE_LEN
    ensures Payloads(SegmentsFrom(msg, cs, cursor)) == msg[cursor..]
    decreases |msg| - cursor
  {
    var fs := SegmentsFrom(msg, cs, cursor);
    if cursor < |msg| {
      var f := SegmentAt(msg, cs, cursor);
      var next := End(f);
      SegmentsFromPayloads(msg, cs, next);
      var tail := SegmentsFrom(msg, cs, next);
      assert fs[1..] == tail;
      assert msg[cursor..] == msg[cursor..next] + msg[next..];
    }
  }

  /** There are ceil(left / SLICE_SIZE) segments for the bytes left after the cursor. */
  lemma {:induction false} SegmentsFromCount(msg: seq<byte>, cs: Checksum, cursor: nat)
    requires cursor <= |msg| <= MAX_SLICE_LEN
    ensures |SegmentsFrom(msg, cs, cursor)| == (|msg| - cursor + SLICE_SIZE - 1) / SLICE_SIZE
    decreases |msg| - cursor
  {
    if cursor < |msg| {
      var f := SegmentAt(msg, cs, cursor);
      SegmentsFromCount(msg, cs, End(f));
      CountStep(|msg| - cursor, f.header.length);
    }
  }

  /** Removing one segment's bytes removes one segment from the ceiling count. */
  lemma CountStep(left: nat, len: nat)
    requires 0 < len <= SLICE_SIZE && len <= left
    requires len < SLICE_SIZE ==> len == left
    ensures (left + SLICE_SIZE - 1) / SLICE_SIZE == 1 + (left - len + SLICE_SIZE - 1) / SLICE_SIZE
  {
    if len < SLICE_SIZE {
      assert left - len == 0;
    }
  }

  /**
   * Segmentation of a whole message partitions it into ceil(|msg| / SLICE_SIZE)
   * non-empty segments: the first begins at 0, each begins where the previous
   * one ends, the last ends at the message length, each is the frame written
   * at its own offset, and the payloads concatenate to the message.
   */
  lemma SegmentsPartition(msg: seq<byte>, cs: Checksum)
    requires |msg| <= MAX_SLICE_LEN
    ensures var fs := Segments(msg, cs);
      && (|fs| == 0 <==> |msg| == 0)
      && (|fs| > 0 ==> fs[0].header.begin == 0 && End(fs[|fs| - 1]) == |msg|)
      && (forall i :: 0 < i < |fs| ==> fs[i].header.begin == End(fs[i - 1]))
      && (forall i :: 0 <= i < |fs| ==> fs[i].header.begin < |msg| && fs[i] == SegmentAt(msg, cs, fs[i].header.begin))
      && Payloads(fs) == msg
      && |fs| == (|msg| + SLICE_SIZE - 1) / SLICE_SIZE
  {
    SegmentsFromShape(msg, cs, 0);
    SegmentsFromPayloads(msg, cs, 0);
    SegmentsFromCount(msg, cs, 0);
    assert msg[0..] == msg;
  }

  /**
   * One turn of the loop after the acknowledgement arrives: the cursor
   * moves past the segment only when the acknowledgement carries both the
   * response bit and the correct bit; otherwise the same segment goes again.
   */
  function Advance(msg: seq<byte>, cursor: nat, ack: Header): (next: nat)
    requires cursor < |msg| <= MAX_SLICE_LEN
    ensures cursor <= next <= |msg|
    ensures next != cursor <==> Bit(ack.flag, 0) && Bit(ack.flag, 4)
    ensures next != cursor ==> next == cursor + SegmentLength(|msg|, cursor)
  {
    if IsResponse(ack) && IsCorrect(ack) then cursor + SegmentLength(|msg|, cursor)
    else cursor
  }

  /**
   * What a run of the send loop did: the frames written (resends
   * included), the scratch header as left behind, the cursor reached, how
   * many acknowledgements were read, and whether the loop exited.
   */
  datatype SendRun = SendRun(written: seq<Frame>, scratch: Header, cursor: nat, acksRead: nat, exited: bool)

  /**
   * The send loop from a cursor, fed one acknowledgement per written
   * segment. When the acknowledgements run out while the cursor is short of
   * the end, the loop has written a segment and is still waiting.
   */
  function Transmit(msg: seq<byte>, cs: Checksum, scratch: Header, cursor: nat, acks: seq<Header>): (r: SendRun)
    requires cursor <= |msg| <= MAX_SLICE_LEN
    ensures cursor <= r.cursor <= |msg|
    ensures r.exited <==> r.cursor == |msg|
    ensures r.acksRead <= |acks|
    ensures r.exited ==> r.acksRead == |r.written|
    ensures !r.exited ==> r.acksRead == |acks| && |r.written| == |acks| + 1
    ensures forall i :: 0 <= i < |r.written| ==>
              r.written[i].header.begin < |msg| && r.written[i] == SegmentAt(msg, cs, r.written[i].header.begin)
    ensures |r.written| == 0 <==> cursor == |msg|
    ensures |r.written| > 0 ==> r.written[0].header.begin == cursor
    ensures forall i :: 0 <= i < |r.written| - 1 ==>
              r.written[i + 1].header.begin == Advance(msg, r.written[i].header.begin, acks[i])
    decreases |acks|
  {
    if cursor == |msg| then SendRun([], scratch, cursor, 0, true)
    else
      var f := SegmentAt(msg, cs, cursor);
      if |acks| == 0 then SendRun([f], f.header, cursor, 0, false)
      else
        var rest := Transmit(msg, cs, f.header, Advance(msg, cursor, acks[0]), acks[1..]);
        FollowsCons(msg, f, rest.written, acks);
        SegmentsCons(msg, cs, f, rest.written);
        SendRun([f] + rest.written, rest.scratch, rest.cursor, rest.acksRead + 1, rest.exited)
  }

  /** Every frame of a run, the first one included, is the segment at its own offset. */
  lemma SegmentsCons(msg: seq<byte>, cs: Checksum, f: Frame, written: seq<Frame>)
    requires f.header.begin < |msg| <= MAX_SLICE_LEN && f == SegmentAt(msg, cs, f.header.begin)
    requires forall i :: 0 <= i < |written| ==>
               written[i].header.begin < |msg| && written[i] == SegmentAt(msg, cs, written[i].header.begin)
    ensures forall i :: 0 <= i < |[f] + written| ==>
              ([f] + written)[i].header.begin < |msg| && ([f] + written)[i] == SegmentAt(msg, cs, ([f] + written)[i].header.begin)
  {
    forall i | 0 < i < |[f] + written|
      ensures ([f] + written)[i] == written[i - 1]
    {
    }
  }

  /**
   * Putting a frame at the cursor in front of a run that started where the
   * first acknowledgement moved the cursor keeps each frame at the offset
   * the acknowledgement of the one before it leads to.
   */
  lemma FollowsCons(msg: seq<byte>, f: Frame, written: seq<Frame>, acks: seq<Header>)
    requires f.header.begin < |msg| <= MAX_SLICE_LEN && 0 < |acks| && |written| <= |acks|
    requires forall i :: 0 <= i < |written| ==> written[i].header.begin < |msg|
    requires |written| > 0 ==> written[0].header.begin == Advance(msg, f.header.begin, acks[0])
    requires forall i :: 0 <= i < |written| - 1 ==>
               written[i + 1].header.begin == Advance(msg, written[i].header.begin, acks[1..][i])
    ensures forall i :: 0 <= i < |written| ==>
              ([f] + written)[i + 1].header.begin == Advance(msg, ([f] + written)[i].header.begin, acks[i])
  {
    forall i | 0 <= i < |written|
      ensures ([f] + written)[i + 1].header.begin == Advance(msg, ([f] + written)[i].header.begin, acks[i])
    {
      if i > 0 {
        assert ([f] + written)[i] == written[i - 1] && acks[i] == acks[1..][i - 1];
      }
    }
  }

  /**
   * How a run ends. The scratch header holds the last frame written (or is
   * untouched when nothing was written); a run that exits does so because the
   * acknowledgement of its last frame moved the cursor to the end; a run
   * still waiting has its cursor at the last frame it wrote.
   */
  lemma TransmitEnds(msg: seq<byte>, cs: Checksum, scratch: Header, cursor: nat, acks: seq<Header>)
    requires cursor <= |msg| <= MAX_SLICE_LEN
    ensures var r := Transmit(msg, cs, scratch, cursor, acks);
      var n := |r.written|;
      && r.scratch == (if n == 0 then scratch else r.written[n - 1].header)
      && (!r.exited ==> r.cursor == r.written[n - 1].header.begin)
      && (r.exited && n > 0 ==> Advance(msg, r.written[n - 1].header.begin, acks[n - 1]) == |msg|)
  {
    TransmitScratch(msg, cs, scratch, cursor, acks);
    TransmitWaitsAtLast(msg, cs, scratch, cursor, acks);
    TransmitExitsOnLastReply(msg, cs, scratch, cursor, acks);
  }

  /** The scratch header is left holding the last frame written, or untouched when none was. */
  lemma {:induction false} TransmitScratch(msg: seq<byte>, cs: Checksum, scratch: Header, cursor: nat, acks: seq<Header>)
    requires cursor <= |msg| <= MAX_SLICE_LEN
    ensures var r := Transmit(msg, cs, scratch, cursor, acks);
      r.scratch == (if |r.written| == 0 then scratch else r.written[|r.written| - 1].header)
    decreases |acks|
  {
    if cursor < |msg| && |acks| > 0 {
      var f := SegmentAt(msg, cs, cursor);
      var next := Advance(msg, cursor, acks[0]);
      TransmitScratch(msg, cs, f.header, next, acks[1..]);
      var rest := Transmit(msg, cs, f.header, next, acks[1..]);
      LastOfCons(f, rest.written);
    }
  }

  /** A run still waiting has its cursor at the last frame it wrote. */
  lemma {:induction false} TransmitWaitsAtLast(msg: seq<byte>, cs: Checksum, scratch: Header, cursor: nat, acks: seq<Header>)
    requires cursor <= |msg| <= MAX_SLICE_LEN
    ensures var r := Transmit(msg, cs, scratch, cursor, acks);
      !r.exited ==> r.cursor == r.written[|r.written| - 1].header.begin
    decreases |acks|
  {
    if cursor < |msg| && |acks| > 0 {
      var f := SegmentAt(msg, cs, cursor);
      var next := Advance(msg, cursor, acks[0]);
      TransmitWaitsAtLast(msg, cs, f.header, next, acks[1..]);
      var rest := Transmit(msg, cs, f.header, next, acks[1..]);
      LastOfCons(f, rest.written);
    }
  }

  /** A run that exits does so because the acknowledgement of its last frame reached the end. */
  lemma {:induction false} TransmitExitsOnLastReply(msg: seq<byte>, cs: Checksum, scratch: Header, cursor: nat, acks: seq<Header>)
    requires cursor <= |msg| <= MAX_SLICE_LEN
    ensures var r := Transmit(msg, cs, scratch, cursor, acks);
      r.exited && |r.written| > 0 ==> Advance(msg, r.written[|r.written| - 1].header.begin, acks[|r.written| - 1]) == |msg|
    decreases |acks|
  {
    if cursor < |msg| && |acks| > 0 {
      var f := SegmentAt(msg, cs, cursor);
      var next := Advance(msg, cursor, acks[0]);
      TransmitExitsOnLastReply(msg, cs, f.header, next, acks[1..]);
      var rest := Transmit(msg, cs, f.header, next, acks[1..]);
      var m := |rest.written|;
      LastOfCons(f, rest.written);
      if m > 0 && rest.exited {
        assert acks[m] == acks[1..][m - 1];
      }
    }
  }

  /** The last element of a sequence with one element put in front. */
  lemma LastOfCons<T>(x: T, xs: seq<T>)
    ensures ([x] + xs)[|xs|] == if |xs| == 0 then x else xs[|xs| - 1]
  {
  }

  /** A positive acknowledgement: the response and correct bits are both set. */
  predicate Positive(ack: Header)
  {
    IsResponse(ack) && IsCorrect(ack)
  }

  /**
   * Fed a positive acknowledgement for every segment, the loop writes each
   * segment exactly once, in order, reads exactly one acknowledgement per
   * segment, and exits with the scratch header holding the last segment's.
   */
  lemma {:induction false} TransmitAllPositive(msg: seq<byte>, cs: Checksum, scratch: Header, cursor: nat, acks: seq<Header>)
    requires cursor <= |msg| <= MAX_SLICE_LEN
    requires |acks| >= |SegmentsFrom(msg, cs, cursor)|
    requires forall i :: 0 <= i < |acks| ==> Positive(acks[i])
    ensures var r := Transmit(msg, cs, scratch, cursor, acks);
      var fs := SegmentsFrom(msg, cs, cursor);
      && r.exited
      && r.written == fs
      && r.acksRead == |fs|
      && r.scratch == (if |fs| == 0 then scratch else fs[|fs| - 1].header)
    decreases |msg| - cursor
  {
    if cursor < |msg| {
      var f := SegmentAt(msg, cs, cursor);
      assert Positive(acks[0]);
      assert Advance(msg, cursor, acks[0]) == End(f);
      assert forall i :: 0 <= i < |acks[1..]| ==> Positive(acks[1..][i]);
      TransmitAllPositive(msg, cs, f.header, End(f), acks[1..]);
    }
  }

  /** A negative acknowledgement makes the loop write the very same frame again. */
  lemma ResendOnNegative(msg: seq<byte>, cs: Checksum, scratch: Header, cursor: nat, acks: seq<Header>)
    requires cursor < |msg| <= MAX_SLICE_LEN
    requires |acks| > 0 && !Positive(acks[0])
    ensures var r := Transmit(msg, cs, scratch, cursor, acks);
      |r.written| >= 2 && r.written[0] == r.written[1] == SegmentAt(msg, cs, cursor)
  {
    var f := SegmentAt(msg, cs, cursor);
    assert Advance(msg, cursor, acks[0]) == cursor;
    var rest := Transmit(msg, cs, f.header, cursor, acks[1..]);
    assert |rest.written| >= 1;
  }
}

=== FILE: seqs.dfy ===
/** Facts about sequences that the stream and accumulator proofs share. */
module Seqs {

  /** Concatenation regroups freely. */
  lemma ConcatAssoc<T>(a: seq<T>, b: seq<T>, c: seq<T>)
    ensures (a + b) + c == a + (b + c)
  {
  }
}

=== FILE: wrappers.dfy ===
/** Rust's Option<T>, used for pop results and for reads that can come up short. */
module Wrappers {

  datatype Option<+T> = None | Some(value: T)
}
